=== FILE: README.md ===
# rise: REST and GraphQL passthrough resolvers, modelled in Dafny

`rise` is a GraphQL schema directive. A field annotated with `@rise(...)` is resolved by a call
to a downstream service. In REST mode the resolver substitutes the field's arguments into a URL
path, builds a body in the configured content type and sends it. It then turns the response into
the field's value: an error class for a non-2xx status, or the JSON narrowed by `resultroot`,
reshaped by `setters` and tagged with the call's arguments for nested fields. In GraphQL mode the
resolver forwards the printed operation to one GraphQL endpoint and can wrap all arguments into
one input object (`argwrapper`). Both modes share one header policy. It decides which request
headers are sent downstream and which response headers are copied back to the caller.

The model is a set of pure functions over an explicit JavaScript value type, plus lemmas that
relate them.

| module | file | what it holds |
|---|---|---|
| `Wrappers` | wrappers.dfy | `Option` and `Result` |
| `Records` | records.dfy | ordered string-keyed entries with JS object-literal semantics (`Lookup` sees the last entry; spread and `Object.assign` are `Assign`) |
| `Text` | text.dfy | `includes`/`indexOf`, `String.prototype.replace` with a string pattern and its `$`-replacement patterns, ASCII lower-casing, `\s`/`\w`, canonical array-index names |
| `Values` | values.dfy | JS values, truthiness, `typeof v === 'object'`, string conversion, own enumerable properties |
| `Paths` | paths.dfy | lodash `_.get` and `_.set` on dotted paths |
| `Common` | common.dfy | the directive, options, caller request and response as inputs, the failure kinds, request-header building, response-header propagation, `RestError` |
| `RestRequest` | rest_request.dfy | argument inheritance, URL placeholder substitution, body generation and encoding, the multipart boundary and text-passthrough header rules, request assembly |
| `RestResponse` | rest_response.dfy | error payloads, `resultroot`, `setters`, the `__args` tag, the response pipeline |
| `RestResolver` | rest_resolver.dfy | one REST resolver call: request, transport, response |
| `Gql` | gql.dfy | the `argwrapper` rewrites of the printed operation (the two global regex replaces), variables, request, reply handling, one GraphQL resolver call |

Effects are inputs. These are:
- the transport (`fetch`, a function from request to response);
- the template engine with `JSON.parse` (`Template`);
- `nodePath.join` (`join`);
- the multipart boundary that `form-data` draws at random (`boundary`);
- the printed GraphQL operation (`printed`);
- the response-key mapping (`mapKeys`).

A response is a status line, the raw header map and the two ways of reading its body (`text()` and
`json()`). Each way either yields a value or raises. An exception that rejects the resolver's
promise is `Thrown(cause)`. An instance of the configured error class is `Upstream(statusText,
status, payload)`.

Behaviours of the code worth knowing:
- An argument whose value is an object, an array or `null` replaces its `$name` placeholder with
  the empty string. It is not left in place.
- Only the first occurrence of each placeholder is replaced, in argument order. `$id` also matches
  the prefix of `$idx`.
- Setters read the data after `resultroot` has been applied, not the raw response.
- A string or empty body still goes through `resultroot` and the setters. The assignment at
  src/rest-resolver.ts:170-172 is overwritten at line 183.
- The `argwrapper` regexes carry the `g` flag, so every match is rewritten, not only the first.
- With an `argwrapper`, the value is still read from `data[fieldName]`.
- The text passthrough (src/rest-resolver.ts:132-138) runs after templating and body encoding.
  Their failures still reject the call.
- `_.set` keeps the objects and arrays it finds along the path and writes into them. A missing or primitive step becomes `[]` when the next segment is an index and `{}` otherwise. A path that reaches `__proto__`, `constructor` or `prototype` stops there and writes nothing further.
- Arguments named `__proto__`, `constructor` or `prototype` are left out of the generated body, and caller headers with those names are never forwarded. `_.pick` and `_.pickBy` build their result with the same guarded write as `_.set`.
- `GET` or `HEAD` with a `multipart/form-data` header reads `_boundary` of an undefined body.
  That raises a `TypeError`, modelled as `Thrown(TypeError(...))`.

## Model

| member | source | states |
|---|---|---|
| Records.Assign | src/rest-resolver.ts:98 | spreading `src` over `m`: a key takes its value from `src` when `src` has it, otherwise from `m`; the keys of `m` keep their order and come first |
| Records.Put | src/rest-resolver.ts:192 | writing one property: the key reads back the new value, all others are unchanged; an existing key keeps its position, a new one is appended |
| Records.FilterKeys | src/common.ts:50 | `_.pickBy` on names: a key survives, with its value, exactly when the predicate holds for it and it is not `__proto__`, `constructor` or `prototype`, which lodash never writes |
| Records.MapValues | src/rest-resolver.ts:23 | `_.mapValues`: the same keys in the same order, each value transformed |
| Text.IndexOf | src/rest-resolver.ts:102 | finds a placeholder exactly when it occurs, and then its first position |
| Text.ReplaceFirst | src/rest-resolver.ts:114 | `replace` with a string pattern: unchanged without an occurrence, otherwise the first occurrence replaced by the expanded replacement and the rest kept |
| Text.SubstitutePlain | src/rest-resolver.ts:114 | a replacement without `$$`, `$&`, `` $` `` or `$'` is inserted literally |
| Text.SubstituteLiteralPrefix | src/rest-resolver.ts:114 | a `$`-free start of a replacement is inserted literally, ahead of the expansion of the rest |
| Text.DoubleDollarCollapses | src/rest-resolver.ts:114 | a `$$` after a `$`-free start and before a pattern-free rest is inserted as a single `$` |
| Values.SpreadKeepsProperties | src/rest-resolver.ts:53-59 | spreading any value (object, array or string) into a new object keeps every property other than `length`, and whether it exists |
| Paths.PropAfterPut | src/rest-resolver.ts:41 | writing one property of an object, or one index of an array, reads back the written value, and every other key except an array's `length` reads as before |
| Paths.GetAfterSet | src/rest-resolver.ts:41 | `_.get` of the path just written by `_.set` returns the written value, for every path that avoids the guard keys and indexes arrays only by indices |
| Paths.GuardedPathUnchanged | src/rest-resolver.ts:41 | a path whose first segment is `__proto__`, `constructor` or `prototype` writes nothing |
| Paths.SetPathFrame | src/rest-resolver.ts:41 | `_.set` leaves every top-level key other than the path's first segment, and other than the whole path when that is itself a key, alone |
| Paths.SetPathNestedFrame | src/rest-resolver.ts:41 | a path that parts from the written one at some depth, other than by `length`, reads as before when it runs through objects and arrays down to that depth: existing objects and arrays on the way are kept and written into, not replaced |
| Common.ReqHeaders | src/common.ts:34-52 | a header comes from the caller when its name matches a forward name case-insensitively, is not one of the three keys `_.pickBy` drops, and the caller sent it; otherwise from the static headers |
| Common.StaticContentType | src/common.ts:35-45 | outbound `Content-Type` precedence: field header, global header, directive content type, global content type, `application/json` |
| Common.ForwardedIff | src/common.ts:46-51 | a caller header that no static header names is forwarded iff a directive or global forward name matches it ignoring case and its name is not `__proto__`, `constructor` or `prototype`, and keeps its value |
| Common.ForwardedOverridesStatic | src/common.ts:48-51 | a forward-listed caller header overrides a static header of the same name, except under the three names `_.pickBy` drops, where the static header stays |
| Common.MissingForwardHeaders | src/common.ts:48-51 | when none of the forward-listed headers are present, exactly the static headers are sent |
| Common.DefaultContentTypeIsJson | src/common.ts:37 | with the default global options, a field without `contenttype` sends JSON |
| Common.Propagate | src/common.ts:54-62 | a listed name is set on the caller's response, with its raw values, exactly when the downstream response carries it |
| Common.ResHeaders | src/common.ts:54-62 | only allow-listed names that the response carries are set |
| Common.ResponseHeaderPolicy | src/common.ts:3-14 | at most the ten listed names propagate, each with its values unchanged |
| Common.RestErrorDefaults | src/common.ts:64-74 | omitted arguments give `'Error occured'`, `400` and `null`; a given message is converted to a string as `Error` does (`42` gives `"42"`, `null` gives `"null"`), and a given code and errors are kept |
| RestRequest.InheritedArgsWin | src/rest-resolver.ts:98 | a parent's `__args` win over the field's own arguments of the same name |
| RestRequest.NoParentArgs | src/rest-resolver.ts:98 | without a parent, or a parent without `__args`, the field's own arguments are used unchanged |
| RestRequest.UnmatchedArgumentsIgnored | src/rest-resolver.ts:100-102 | arguments whose placeholder the URL does not contain leave it unchanged |
| RestRequest.DollarFreeUrl | src/rest-resolver.ts:100-115 | a URL without `$` is never changed by substitution |
| RestRequest.SubstituteInOrder | src/rest-resolver.ts:100-115 | substitution is sequential: the arguments are applied one after another, each to the URL left by the previous ones |
| RestRequest.SingleArgument | src/rest-resolver.ts:101-114 | the first occurrence of `$name`, wherever it is, becomes the argument's text, expanded as a `replace` pattern with the text around the placeholder |
| RestRequest.PlainArgumentVerbatim | src/rest-resolver.ts:107-114 | at the first occurrence of its placeholder, a scalar whose text has no replacement pattern is inserted verbatim |
| RestRequest.ObjectArgumentErased | src/rest-resolver.ts:104-114 | an object, array or `null` argument erases the first occurrence of its placeholder |
| RestRequest.OnlyFirstOccurrence | src/rest-resolver.ts:114 | a placeholder used twice is replaced only at its first occurrence; the second stays in the URL |
| RestRequest.DollarFreePrefix | src/rest-resolver.ts:114 | a placeholder with no `$` before it is the first occurrence of its name |
| RestRequest.DollarArgumentCollapses | src/rest-resolver.ts:107-114 | a string argument with `$$` puts a single `$` into the URL |
| RestRequest.PlaceholderPrefixMatch | src/rest-resolver.ts:101-102 | `$id` is also replaced inside `$idx` |
| RestRequest.AutoBody | src/rest-resolver.ts:13-15 | `_.pick` of every argument name keeps each argument with its value, except those named `__proto__`, `constructor` or `prototype` |
| RestRequest.BodyValue | src/rest-resolver.ts:117-120 | with a `postbody` template that renders, the body is the rendered value; without `postbody` it is the picked arguments; a template failure is the only error |
| RestRequest.Encode | src/rest-resolver.ts:17-37 | encoding fails exactly for multipart with a nullish body; JSON is the stringified body; form and multipart keep the body's keys, and multipart has a boundary iff it has fields; any other content type passes the body through as is |
| RestRequest.FormFields | src/rest-resolver.ts:22-25 | url-encoded form values are stringified exactly when they are objects, and keep their value |
| RestRequest.MultipartParts | src/rest-resolver.ts:27-34 | strings become text parts, every other value a JSON-stringified part |
| RestRequest.WithBoundary | src/rest-resolver.ts:125-128 | only an exact `multipart/form-data` header can change, and no other header is touched |
| RestRequest.FirstContentTypeKey | src/rest-resolver.ts:133 | the first key that lower-cases to `content-type`, or none when no key does |
| RestRequest.TextOverride | src/rest-resolver.ts:132-135 | there is an override exactly when the first key spelled `content-type` in any case holds a value mentioning `text/`, and it is that value |
| RestRequest.FirstSpellingDecides | src/rest-resolver.ts:132-135 | with several spellings of `content-type`, the first one alone decides: its value when it mentions `text/`, otherwise no override, whatever later spellings hold |
| RestRequest.EncodedBody | src/rest-resolver.ts:117-122 | `GET` and `HEAD` send no body; only templating and encoding can fail |
| RestRequest.Finish | src/rest-resolver.ts:125-138 | a text-typed caller body and its content type replace the generated ones; failure only with a multipart header; other headers unchanged |
| RestRequest.BuildRequest | src/rest-resolver.ts:92-146 | the request uses the directive's method and goes to the joined path with the inherited arguments substituted; its headers other than `Content-Type` are the outbound headers; its body and `Content-Type` are the encoded body after the boundary and text-passthrough rules; the returned arguments are the inherited ones |
| RestRequest.PlaceholderFilledInRequest | src/rest-resolver.ts:100-115 | when the argument is the last one, no earlier argument's placeholder occurs in the joined path, and its text has no `$$`, `$&`, `` $` `` or `$'`, the request's URL has that text in place of the placeholder's first occurrence |
| RestRequest.StaticPathFetchedAsJoined | src/rest-resolver.ts:89-115 | a path without placeholders is fetched as joined to the base URL |
| RestRequest.TextBodyForwarded | src/rest-resolver.ts:130-138 | a text-typed caller request is forwarded with its own body and content type |
| RestRequest.BodilessMethods | src/rest-resolver.ts:117-122 | `GET`/`HEAD` send no body |
| RestRequest.BodilessMultipartFails | src/rest-resolver.ts:117-128 | `GET`/`HEAD` with a multipart header rejects with a `TypeError` |
| RestRequest.JsonBodyIsArguments | src/rest-resolver.ts:117-121 | the default JSON body is the stringified picked inherited arguments, with headers untouched, even when a configured header says `multipart/form-data` |
| RestRequest.MultipartOfArguments | src/rest-resolver.ts:27-34 | a non-empty argument set becomes a multipart form with one part per argument and the drawn boundary |
| RestRequest.MultipartAnnouncesBoundary | src/rest-resolver.ts:117-128 | a multipart request with at least one argument that `_.pick` keeps has one part per picked argument and announces its form's boundary in `Content-Type` |
| RestRequest.TemplateFailurePropagates | src/rest-resolver.ts:117-119 | a failing `postbody` template rejects the call with that exception |
| RestResponse.ErrorFor | src/rest-resolver.ts:148-162 | a non-2xx response raises the error class with its status line; an unreadable body passes the read exception, otherwise the payload is truthy |
| RestResponse.TextErrorMessage | src/rest-resolver.ts:151-161 | a text error body under `errorroot` becomes `{message: text}` |
| RestResponse.TextErrorWithoutRoot | src/rest-resolver.ts:154 | without `errorroot`, a text error body is keyed by the string `undefined` |
| RestResponse.JsonErrorNarrowed | src/rest-resolver.ts:155-161 | a JSON error body is narrowed to `errorroot`, falling back to `{}` when that is falsy |
| RestResponse.MergedKeyAbsent | src/rest-resolver.ts:174-177 | a key is missing from merged roots iff no root supplies it |
| RestResponse.LaterRootWins | src/rest-resolver.ts:176-177 | among merged roots, the last one that supplies a key decides its value |
| RestResponse.SettersFrame | src/rest-resolver.ts:39-45 | a key that no setter can write keeps its value |
| RestResponse.LastSetterReadsBack | src/rest-resolver.ts:40-41 | after the setters, the last setter's field reads back its source path, when that field avoids the guard keys and indexes arrays only by indices |
| RestResponse.AssignSetterCopies | src/rest-resolver.ts:42-44 | a setter without `field` copies every property found at its path, and every key that value lacks keeps the target's value |
| RestResponse.TransformWithSetters | src/rest-resolver.ts:47-67 | arrays stay arrays of the same length whose elements are objects; anything else becomes an object |
| RestResponse.ArrayElementsShareSetterValue | src/rest-resolver.ts:58-64 | every element of an array gets its value from the whole array, not from itself |
| RestResponse.Tag | src/rest-resolver.ts:188-193 | an object result gets `__args` and keeps every other property; anything else is unchanged |
| RestResponse.EmptyTextUnderDataRoot | src/rest-resolver.ts:164-194 | an empty text body under `resultroot: "data"` resolves to `undefined` |
| RestResponse.PlainObjectTagged | src/rest-resolver.ts:183-194 | without root or setters, an object result is the response tagged with the arguments |
| RestResponse.SettersReadRootedData | src/rest-resolver.ts:174-186 | setter paths are read relative to the rooted data |
| RestResponse.ReadBody | src/rest-resolver.ts:164-166 | `Void` fields read text, others JSON; a read failure is the only error |
| RestResponse.HandleResponse | src/rest-resolver.ts:147-195 | the error class is raised exactly for a non-2xx status, which copies no headers; a 2xx response copies the allow-listed ones |
| RestResponse.NonOkRaisesStatus | src/rest-resolver.ts:148-162 | a non-2xx response raises the error class built from that response |
| RestResponse.NoContentVoidResolvesUndefined | src/rest-resolver.ts:164-194 | a 204 on a `Void` field under the `data` root resolves to `undefined` |
| RestResolver.Resolve | src/rest-resolver.ts:91-195 | a failing template rejects the call before any response header is copied |
| RestResolver.NonOkNeverResolves | src/rest-resolver.ts:141-162 | a request answered with a non-2xx status always raises the error class with that status |
| RestResolver.ObjectResultsCarryArgs | src/rest-resolver.ts:188-193 | every object the resolver returns carries the call's inherited arguments under `__args` |
| RestResolver.NestedCallSeesParentArgs | src/rest-resolver.ts:98-193 | a nested field on a returned object sees the parent's arguments, which win over its own |
| Gql.SpacesEnd | src/gql-resolver.ts:57 | `\s*` as the longest run of whitespace |
| Gql.ParenFreeEnd | src/gql-resolver.ts:57 | `[^()]*` as the longest run without parentheses |
| Gql.OpMatchSound | src/gql-resolver.ts:57 | a match of the operation pattern is `query`, spaces, the name, spaces and a parenthesised list without nested parentheses, at a word boundary |
| Gql.OpMatchComplete | src/gql-resolver.ts:57 | every such text at a word boundary is matched, to its end |
| Gql.FieldMatchSound | src/gql-resolver.ts:61 | a match of the field pattern is the name, spaces and a parenthesised list, at a word boundary |
| Gql.FieldMatchComplete | src/gql-resolver.ts:61 | every such text at a word boundary is matched, to its end |
| Gql.UnmatchedStretch | src/gql-resolver.ts:64-74 | text where no match starts is copied unchanged |
| Gql.NoMatchUnchanged | src/gql-resolver.ts:64-74 | a query with no match is unchanged |
| Gql.MatchStep | src/gql-resolver.ts:64-74 | a match is replaced by the expanded replacement and scanning resumes after it |
| Gql.EveryMatchReplaced | src/gql-resolver.ts:64-74 | two successive matches are both replaced: the replace is global |
| Gql.FirstMatchReplaced | src/gql-resolver.ts:64-74 | with no match before the first one, the text before it is kept and a `$`-free replacement is inserted verbatim where the match was |
| Gql.NonQueryKeepsHeader | src/gql-resolver.ts:57 | on a query without the word `query`, the operation pattern leaves the text unchanged (the field pass may still rewrite a header whose name equals the field's) |
| Gql.AnonymousKeepsHeader | src/gql-resolver.ts:52-57 | an anonymous operation looks for the name `undefined`, so on text without that word the operation pattern leaves the text unchanged |
| Gql.WrapArguments | src/gql-resolver.ts:48-77 | a wrapper with an empty name leaves the query unchanged |
| Gql.OperationHeaderRewritten | src/gql-resolver.ts:64-69 | the first operation header is replaced by `<type> <name>($<wrapper>: <Type>)` |
| Gql.VariablesSource | src/gql-resolver.ts:101-103 | with a `gqlVariables` template that renders, the variables are the rendered value; without one they are the incoming `variableValues`; a template failure is the only way building them can fail |
| Gql.SentVariables | src/gql-resolver.ts:101-110 | wrapping fails exactly when building the variables fails |
| Gql.BuildGqlRequest | src/gql-resolver.ts:90-120 | building fails exactly when the variables template does; the request goes to the base URL with the shared outbound headers, carries the printed query rewritten by the wrapper when one is configured and as is otherwise, and the variables nested under the wrapper's name |
| Gql.VariablesWrappedIff | src/gql-resolver.ts:101-110 | in the sent request, the variables are an object whose one key is the wrapper's name, holding the built variables, when the name is non-empty, and the built variables themselves otherwise; those are the rendered `gqlVariables` template when one is given, and the incoming ones otherwise |
| Gql.SentQueryRewritesHeader | src/gql-resolver.ts:64-98 | with a named wrapper, the sent query keeps the text before the first operation header, replaces that header with the wrapped one, and then has every field call rewritten |
| Gql.GqlResult | src/gql-resolver.ts:125-137 | the error class is raised only for a parsed body with truthy `errors` |
| Gql.HandleGqlResponse | src/gql-resolver.ts:121-124 | response headers are copied whatever the status |
| Gql.StatusIgnored | src/gql-resolver.ts:121-137 | the HTTP status plays no part in the result |
| Gql.ErrorsRaise | src/gql-resolver.ts:126-132 | truthy `errors` raise the error class from the body's own `statusText`/`status`, which default under `RestError` |
| Gql.EmptyErrorsArrayFails | src/gql-resolver.ts:126 | an empty `errors` array still fails the call |
| Gql.FieldExtracted | src/gql-resolver.ts:136-137 | without errors, the value is the field's entry in the mapped `data` |
| Gql.ResolveGql | src/gql-resolver.ts:90-138 | the error class is raised only when the fetched reply's body carries truthy `errors` |
| Gql.ErrorReplyStillCopiesHeaders | src/gql-resolver.ts:121-132 | a reply reporting errors still has its headers copied before the error is raised |

## Left out

- The transport is a parameter: node-fetch, promises, `credentials: 'include'` and network failures are not modelled. A rejected `fetch` is the transport's business.
- The template engine and `JSON.parse` are the `Template` parameter. lodash template syntax is not modelled.
- `JSON.stringify`, `URLSearchParams` and `form-data` serialisation are modelled as the structured payloads `JsonText`, `FormText` and `MultipartForm`, not as bytes. The boundary is an input instead of a random draw.
- `nodePath.join` is the `join` parameter. Path normalisation is not modelled.
- graphql-js `print` is the `printed` input.
- `mapKeysDeep` and `parseResponseKeyFormat` are the `mapKeys` parameter.
- The wiring in src/index.ts (schema mapping, directive lookup, option defaults other than `contenttype`) and the type definitions are not part of this model.
- Logging (`console.debug`) is not modelled. `context.res.setHeader` is modelled as the returned list of headers set.
- The in-place `forwardheaders.push` at src/common.ts:46 grows the directive's own list across calls. The model recomputes the list on each call.
- RestResponse.Tag: a truthy primitive result would raise in strict mode when `__args` is written, and an array would get a non-index property. The model leaves both unchanged.
- Strings are sequences of Unicode code points, not UTF-16 code units. A character outside the Basic Multilingual Plane counts as one: `"😀".length` is 1 in the model and 2 in JavaScript, and spreading that string gives one index key, not two. This affects `resultroot`, `setters` and multipart keys applied to a string body.
- Numbers are integers. Floating point, `NaN` and number-to-string formatting of non-integers are not modelled.
- Object key order: JS places integer-like keys first. The model keeps insertion order for every key.
- `toLowerCase` is modelled on the ASCII letters only. `\s` is the full ECMAScript class and `\w` is ASCII by definition, so both are exact.
- Paths.GetAfterSet: the read-back is promised only for paths whose segments avoid the guard keys and index arrays by indices (`CanSet`). A non-index key written on an existing array, such as `length`, is dropped, since entries of an array are its indices alone.
- lodash bracket paths (`a[0].b`) are not split into segments. A dotted path is split at every dot.
- An index written past an array's end leaves `undefined` entries, not holes. Inherited prototype properties are not modelled.
- Paths.SetPathNestedFrame: a path that reaches an array's `length` is excluded, because writing an index can change it. Paths.PropAfterPut excludes `length` for the same reason.
- RestResponse.TransformWithSetters: values are immutable trees, so the sharing between the spread copy and the data is not modelled. `{ ...data }` is shallow: a setter that writes into a nested object also writes into `data`, and a later setter reads that. With setters `[{field: "a.b", path: "c"}, {field: "d", path: "a.b"}]` on `{a: {b: 1}, c: 2}`, the code sets `d` to 2 and the model sets it to 1.
- RestResponse.LastSetterReadsBack: the source path is read from the data as it was before any setter, for the aliasing reason above.
- A context without `req` would make the header code throw. The model always has a caller request.
- The `!data || typeof data === 'string'` assignment at src/rest-resolver.ts:170-172 has no effect and is not modelled separately.

=== FILE: common.dfy ===
/**
  What both resolver kinds share: the directive and global configuration, the caller's
  request and the downstream response as inputs, the failure taxonomy, and the header
  policy of src/common.ts (outbound request headers, response-header propagation and the
  default error class `RestError`).
 */
module Common {
  import opened Wrappers
  import opened Records
  import opened Text
  import opened Values

  /** Header names to values, in insertion order. */
  type Headers = Entries<string>

  /** `resultroot`: one dotted path, or a list of paths whose subtrees are merged. */
  datatype RootSpec = RootPath(path: string) | RootPaths(paths: seq<string>)

  /** A setter rule; an empty `field` stands for a missing or empty `field` argument. */
  datatype Setter = Setter(field: string, path: string)

  /** `argwrapper: {name, type}` of a GraphQL-mode directive. */
  datatype ArgWrapper = ArgWrapper(name: string, typeName: string)

  /** The global options of `rise(...)`, after the defaults are applied. */
  datatype Options = Options(
    baseURL: string,
    headers: Headers,
    forwardHeaders: seq<string>,
    contentType: string,
    resultRoot: Option<RootSpec>,
    errorRoot: Option<string>)

  /** The defaults `rise(...)` starts from before the caller's options override them. */
  const DefaultOptions: Options := Options("", [], [], "", None, None)

  /** The directive arguments of one field; `None` is an argument that was not given. */
  datatype Directive = Directive(
    path: string,
    httpMethod: Option<string>,
    headers: Option<Headers>,
    setters: Option<seq<Setter>>,
    resultRoot: Option<RootSpec>,
    errorRoot: Option<string>,
    postBody: Option<string>,
    forwardHeaders: Option<seq<string>>,
    contentType: Option<string>,
    argWrapper: Option<ArgWrapper>,
    gqlVariables: Option<string>)

  /**
    The caller's request held by the resolver context: its headers, the headers it was
    originally sent with (`orginalHeaders`, empty when absent) and its body.
   */
  datatype CallerRequest = CallerRequest(headers: Headers, originalHeaders: Headers, body: Value)

  /**
    A downstream response: status line, the raw header map (lower-case names, as the
    fetch implementation stores them) and the two ways of reading the body, each of
    which either yields a value or fails with an exception.
   */
  datatype Response = Response(
    status: int,
    statusText: string,
    rawHeaders: map<string, seq<string>>,
    text: Result<string, Value>,
    json: Result<Value, Value>)

  /** `response.ok`. */
  predicate IsOk(r: Response) {
    200 <= r.status <= 299
  }

  /** The values of one header joined as `Headers.get` joins them. */
  function JoinHeaderValues(vs: seq<string>): string
    decreases |vs|
  {
    if |vs| == 0 then ""
    else if |vs| == 1 then vs[0]
    else vs[0] + ", " + JoinHeaderValues(vs[1..])
  }

  /** `response.headers.get('Content-Type')`. */
  function ContentTypeOf(r: Response): Option<string> {
    if "content-type" in r.rawHeaders then Some(JoinHeaderValues(r.rawHeaders["content-type"]))
    else None
  }

  /** What a resolver yields, with the response headers it copied to the caller's response. */
  datatype Outcome = Outcome(result: Result<Value, Failure>, propagated: seq<(string, seq<string>)>)

  /** Why a resolver threw without going through the configured error class. */
  datatype Cause =
    | TemplateFailed(exception: Value)
    | BodyReadFailed(exception: Value)
    | TypeError(reason: string)

  /**
    `Upstream` is an instance of the configured error class built from
    `(statusText, status, payload)`; `Thrown` is any other exception.
   */
  datatype Failure =
    | Upstream(statusText: Value, status: Value, payload: Value)
    | Thrown(cause: Cause)

  /** `contenttype`: the directive's, else the global one if truthy, else JSON. */
  function EffectiveContentType(d: Directive, opts: Options): string {
    match d.contentType
    case Some(ct) => ct
    case None => if opts.contentType != "" then opts.contentType else "application/json"
  }

  /** `{'Content-Type': contenttype, ...options.headers, ...headers}`. */
  function StaticHeaders(d: Directive, opts: Options): Headers {
    Assign(Assign([("Content-Type", EffectiveContentType(d, opts))], opts.headers), d.headers.GetOr([]))
  }

  /** The forward list: directive and global names, compared lower-cased. */
  function ForwardNames(d: Directive, opts: Options): set<string> {
    set h | h in d.forwardHeaders.GetOr([]) + opts.forwardHeaders :: Lower(h)
  }

  /** `getReqHeaders`: the static headers, overridden by the forward-listed caller headers. */
  function ReqHeaders(d: Directive, opts: Options, inbound: Headers): (r: Headers)
    ensures forall k ::
              Lookup(r, k) ==
                if Lower(k) in ForwardNames(d, opts) && !Guarded(k) && Lookup(inbound, k).Some? then Lookup(inbound, k)
                else Lookup(StaticHeaders(d, opts), k)
  {
    var fwd := ForwardNames(d, opts);
    Assign(StaticHeaders(d, opts), FilterKeys(inbound, (h: string) => Lower(h) in fwd))
  }

  /**
    The outbound `Content-Type`: a field header wins over a global header, which wins
    over the directive's content type, the global one, and finally `application/json`.
   */
  lemma StaticContentType(d: Directive, opts: Options)
    ensures Lookup(StaticHeaders(d, opts), "Content-Type") ==
      if d.headers.Some? && Lookup(d.headers.value, "Content-Type").Some? then Lookup(d.headers.value, "Content-Type")
      else if Lookup(opts.headers, "Content-Type").Some? then Lookup(opts.headers, "Content-Type")
      else if d.contentType.Some? then d.contentType
      else if opts.contentType != "" then Some(opts.contentType)
      else Some("application/json")
  {
    LookupSnoc([], ("Content-Type", EffectiveContentType(d, opts)), "Content-Type");
  }

  /**
    A caller header that no static header names is forwarded exactly when its name
    matches some directive or global forward name case-insensitively and is not one of
    the keys `_.pickBy` never writes, whatever its value, and it keeps its own spelling
    and value.
   */
  lemma ForwardedIff(d: Directive, opts: Options, inbound: Headers, k: string)
    requires Lookup(inbound, k).Some? && Lookup(StaticHeaders(d, opts), k).None?
    ensures Lookup(ReqHeaders(d, opts, inbound), k).Some? <==>
      !Guarded(k) && exists f :: f in d.forwardHeaders.GetOr([]) + opts.forwardHeaders && Lower(f) == Lower(k)
    ensures Lookup(ReqHeaders(d, opts, inbound), k).Some? ==>
      Lookup(ReqHeaders(d, opts, inbound), k) == Lookup(inbound, k)
  {
  }

  /**
    A forward-listed caller header overrides a static header of the identical name,
    unless `_.pickBy` drops its name, in which case the static header stays.
   */
  lemma ForwardedOverridesStatic(d: Directive, opts: Options, inbound: Headers, k: string)
    requires Lookup(inbound, k).Some? && Lower(k) in ForwardNames(d, opts)
    ensures Lookup(ReqHeaders(d, opts, inbound), k) ==
      if Guarded(k) then Lookup(StaticHeaders(d, opts), k) else Lookup(inbound, k)
  {
  }

  /**
    A request without headers, or whose forward-listed headers are all missing, sends
    just the static headers: nothing fails.
   */
  lemma MissingForwardHeaders(d: Directive, opts: Options, inbound: Headers)
    requires forall k :: Lookup(inbound, k).Some? ==> Lower(k) !in ForwardNames(d, opts)
    ensures forall k :: Lookup(ReqHeaders(d, opts, inbound), k) == Lookup(StaticHeaders(d, opts), k)
  {
  }

  /** Under the default options a field without `contenttype` sends JSON. */
  lemma DefaultContentTypeIsJson(d: Directive)
    requires d.contentType.None?
    ensures EffectiveContentType(d, DefaultOptions) == "application/json"
  {
  }

  /** The downstream response headers that are copied to the caller's response. */
  const ForwardResponseHeaders: seq<string> := [
    "set-cookie",
    "x-callosum-incident-id",
    "x-callosum-ip",
    "x-callosum-request-time-us",
    "x-callosum-trace-id",
    "x-content-type-options",
    "x-nginx-localhost",
    "x-ua-compatible",
    "x-xss-protection",
    "x-csrf-token"
  ]

  /**
    The `setHeader` calls made for the names in `allow`, in that order: a name is set,
    with its raw values, exactly when the downstream response carries it.
   */
  function Propagate(raw: map<string, seq<string>>, allow: seq<string>): (r: seq<(string, seq<string>)>)
    ensures forall n :: Lookup(r, n) == if n in allow && n in raw then Some(raw[n]) else None
    ensures |r| <= |allow|
    decreases |allow|
  {
    if |allow| == 0 then []
    else
      var rest := Propagate(raw, allow[..|allow| - 1]);
      var n := allow[|allow| - 1];
      assert allow == allow[..|allow| - 1] + [n];
      if n in raw then
        assert forall k :: Lookup(rest + [(n, raw[n])], k) == LookupSnocValue(rest, (n, raw[n]), k);
        rest + [(n, raw[n])]
      else rest
  }

  /** `processResHeaders`, returning the headers set on the caller's response. */
  function ResHeaders(raw: map<string, seq<string>>): (r: seq<(string, seq<string>)>)
    ensures forall i :: 0 <= i < |r| ==> r[i].0 in ForwardResponseHeaders && r[i].0 in raw
  {
    var r := Propagate(raw, ForwardResponseHeaders);
    forall i | 0 <= i < |r| ensures Lookup(r, r[i].0).Some? {
      assert Keys(r)[i] == r[i].0;
    }
    r
  }

  /** Only the ten allow-listed names propagate, each with its values unchanged. */
  lemma ResponseHeaderPolicy(raw: map<string, seq<string>>, n: string)
    ensures Lookup(ResHeaders(raw), n) ==
      if n in ForwardResponseHeaders && n in raw then Some(raw[n]) else None
    ensures |ResHeaders(raw)| <= 10
  {
  }

  /** The default error class: `message`, `code` and `errors`. */
  datatype RestError = RestError(message: Value, code: Value, errors: Value)

  /**
    `new RestError(message, code, errors)`: parameters default when `undefined`, and the
    `Error` constructor stores a given message as its string form.
   */
  function NewRestError(message: Value, code: Value, errors: Value): RestError {
    RestError(
      if message.Undefined? then Str("Error occured") else Str(ToJsString(message)),
      if code.Undefined? then Num(400) else code,
      if errors.Undefined? then Null else errors)
  }

  /** The error value a failure becomes when the configured class is `RestError`. */
  function AsRestError(f: Failure): Option<RestError> {
    match f
    case Upstream(statusText, status, payload) => Some(NewRestError(statusText, status, payload))
    case Thrown(_) => None
  }

  /**
    Omitted arguments give `'Error occured'`, `400` and `null`. A given message is kept
    as its string form, so the message is always a string and a string message is kept
    as it is; a given code and given errors are kept unchanged.
   */
  lemma RestErrorDefaults(message: Value, code: Value, errors: Value)
    ensures NewRestError(Undefined, Undefined, Undefined) == RestError(Str("Error occured"), Num(400), Null)
    ensures NewRestError(message, code, errors).message.Str?
    ensures !message.Undefined? ==> NewRestError(message, code, errors).message == Str(ToJsString(message))
    ensures message.Str? ==> NewRestError(message, code, errors).message == message
    ensures !code.Undefined? ==> NewRestError(message, code, errors).code == code
    ensures !errors.Undefined? ==> NewRestError(message, code, errors).errors == errors
  {
  }
}

=== FILE: gql.dfy ===
/**
  The GraphQL passthrough (src/gql-resolver.ts): the printed operation is rewritten so
  that all arguments travel in one wrapper variable, the variables are nested under the
  wrapper's name, and the downstream reply is checked for `errors` before the field's
  value is read from its `data`.

  The two rewrites are global regular-expression replacements,
  `\bquery\s+<operation>\s*\([^()]*\)` and `\b<field>\s*\([^()]*\)`. Operation and field
  names are GraphQL names, so they contain no pattern syntax, and at a given position
  each pattern has at most one match: `MatchAt` finds it, and `OpMatchSound`,
  `OpMatchComplete`, `FieldMatchSound` and `FieldMatchComplete` tie it to the pattern's
  shape.
 */
module Gql {
  import opened Wrappers
  import opened Records
  import opened Text
  import opened Values
  import opened Common
  import opened RestRequest

  /** A GraphQL name: a letter or `_`, then letters, digits and `_`. */
  predicate IsName(s: string) {
    |s| > 0 && !IsDigit(s[0]) && forall i :: 0 <= i < |s| ==> IsWordChar(s[i])
  }

  type Name = s: string | IsName(s) witness "query"

  /** What the resolver reads from the GraphQL resolve info. */
  datatype OperationInfo = OperationInfo(
    operationType: string,
    operationName: Option<Name>,
    fieldName: Name,
    variableValues: Value)

  /** The end of the run of `\s` characters that starts at `i`. */
  function SpacesEnd(s: string, i: nat): (e: nat)
    requires i <= |s|
    ensures i <= e <= |s| && (forall j :: i <= j < e ==> IsSpace(s[j])) && (e == |s| || !IsSpace(s[e]))
    decreases |s| - i
  {
    if i == |s| || !IsSpace(s[i]) then i else SpacesEnd(s, i + 1)
  }

  predicate IsParen(c: char) {
    c == '(' || c == ')'
  }

  /** The end of the run of characters other than parentheses that starts at `i`. */
  function ParenFreeEnd(s: string, i: nat): (e: nat)
    requires i <= |s|
    ensures i <= e <= |s| && (forall j :: i <= j < e ==> !IsParen(s[j])) && (e == |s| || IsParen(s[e]))
    decreases |s| - i
  {
    if i == |s| || IsParen(s[i]) then i else ParenFreeEnd(s, i + 1)
  }

  /** `\b` at `i`: exactly one of the characters around `i` is a word character. */
  predicate WordBoundary(s: string, i: nat)
    requires i <= |s|
  {
    (i > 0 && IsWordChar(s[i - 1])) != (i < |s| && IsWordChar(s[i]))
  }

  /** `\s*\([^()]*\)` at `i`, giving the end of the match. */
  function ArgListAt(s: string, i: nat): (r: Option<nat>)
    requires i <= |s|
    ensures r.Some? ==> i < r.value <= |s|
  {
    var m := SpacesEnd(s, i);
    if m < |s| && s[m] == '(' then
      var n := ParenFreeEnd(s, m + 1);
      if n < |s| && s[n] == ')' then Some(n + 1) else None
    else None
  }

  /** The operation header pattern (always with the keyword `query`) or the field call pattern. */
  datatype Pattern = Operation(opName: Name) | Field(field: Name)

  /** The end of the match of `pat` that starts at `i`, if there is one. */
  function MatchAt(s: string, i: nat, pat: Pattern): (r: Option<nat>)
    requires i <= |s|
    ensures r.Some? ==> i < r.value <= |s|
  {
    if !WordBoundary(s, i) then None
    else
      match pat
      case Operation(name) =>
        if !OccursAt(s, "query", i) then None
        else
          var k := SpacesEnd(s, i + 5);
          if k == i + 5 || !OccursAt(s, name, k) then None
          else ArgListAt(s, k + |name|)
      case Field(name) =>
        if !OccursAt(s, name, i) then None else ArgListAt(s, i + |name|)
  }

  predicate AllSpace(w: string) {
    forall j :: 0 <= j < |w| ==> IsSpace(w[j])
  }

  predicate ParenFree(t: string) {
    forall j :: 0 <= j < |t| ==> !IsParen(t[j])
  }

  /** The text of an argument list: spaces, then a parenthesised list. */
  function ArgText(ws: string, inner: string): string {
    ws + "(" + inner + ")"
  }

  /** `s[i..e]` is `query`, spaces, the name, spaces, and a parenthesised list without parentheses. */
  ghost predicate IsOpMatch(s: string, i: nat, e: nat, name: Name, ws1: string, ws2: string, inner: string) {
    i <= e <= |s| && WordBoundary(s, i) && |ws1| > 0 && AllSpace(ws1) && AllSpace(ws2) && ParenFree(inner) &&
    s[i..e] == "query" + (ws1 + (name + ArgText(ws2, inner)))
  }

  /** `s[i..e]` is the name, spaces, and a parenthesised list without parentheses. */
  ghost predicate IsFieldMatch(s: string, i: nat, e: nat, name: Name, ws: string, inner: string) {
    i <= e <= |s| && WordBoundary(s, i) && AllSpace(ws) && ParenFree(inner) &&
    s[i..e] == name + ArgText(ws, inner)
  }

  lemma WordCharNotSpace(c: char)
    requires IsWordChar(c)
    ensures !IsSpace(c)
  {
  }

  /** A slice spelled as a concatenation splits into slices for the two parts. */
  lemma SplitSlice(s: string, i: nat, e: nat, a: string, b: string)
    requires i <= e <= |s| && s[i..e] == a + b
    ensures i + |a| <= e && s[i..i + |a|] == a && s[i + |a|..e] == b
  {
    assert s[i..i + |a|] == (a + b)[..|a|];
    assert s[i + |a|..e] == (a + b)[|a|..];
  }

  /** Two adjacent slices make up the slice that spans both. */
  lemma JoinSlice(s: string, i: nat, m: nat, e: nat)
    requires i <= m <= e <= |s|
    ensures s[i..e] == s[i..m] + s[m..e]
  {
  }

  /** A run of spaces that ends before a non-space ends where `SpacesEnd` says. */
  lemma {:induction false} SpacesEndAt(s: string, i: nat, k: nat)
    requires i <= k <= |s| && (forall j :: i <= j < k ==> IsSpace(s[j])) && (k == |s| || !IsSpace(s[k]))
    ensures SpacesEnd(s, i) == k
    decreases k - i
  {
    if i < k {
      SpacesEndAt(s, i + 1, k);
    }
  }

  /** A run without parentheses that ends before a parenthesis ends where `ParenFreeEnd` says. */
  lemma {:induction false} ParenFreeEndAt(s: string, i: nat, k: nat)
    requires i <= k <= |s| && (forall j :: i <= j < k ==> !IsParen(s[j])) && (k == |s| || IsParen(s[k]))
    ensures ParenFreeEnd(s, i) == k
    decreases k - i
  {
    if i < k {
      ParenFreeEndAt(s, i + 1, k);
    }
  }

  /** The argument-list part of a match, read off from its span. */
  lemma ArgListSpan(s: string, i: nat, e: nat, ws: string, inner: string)
    requires AllSpace(ws) && ParenFree(inner)
    requires i <= e <= |s| && s[i..e] == ArgText(ws, inner)
    ensures ArgListAt(s, i) == Some(e)
  {
    var t := ArgText(ws, inner);
    var m, n := i + |ws|, i + |ws| + 1 + |inner|;
    assert |t| == e - i;
    forall j | i <= j < m ensures IsSpace(s[j]) {
      assert s[j] == s[i..e][j - i] == t[j - i] == ws[j - i];
    }
    assert s[m] == s[i..e][|ws|] == t[|ws|] == '(';
    SpacesEndAt(s, i, m);
    forall j | m + 1 <= j < n ensures !IsParen(s[j]) {
      assert s[j] == s[i..e][j - i] == t[j - i] == inner[j - m - 1];
    }
    assert s[n] == s[i..e][|ws| + 1 + |inner|] == t[|ws| + 1 + |inner|] == ')';
    ParenFreeEndAt(s, m + 1, n);
  }

  /** The span of a match of the argument list, as spaces and a parenthesis-free list. */
  lemma ArgListWitness(s: string, i: nat) returns (ws: string, inner: string)
    requires i <= |s| && ArgListAt(s, i).Some?
    ensures AllSpace(ws) && ParenFree(inner)
    ensures s[i..ArgListAt(s, i).value] == ArgText(ws, inner)
  {
    var m := SpacesEnd(s, i);
    var n := ParenFreeEnd(s, m + 1);
    ws, inner := s[i..m], s[m + 1..n];
    assert s[i..n + 1] == ws + "(" + inner + ")";
  }

  /** Every operation match has the shape of the pattern. */
  lemma OpMatchSound(s: string, i: nat, name: Name)
    requires i <= |s| && MatchAt(s, i, Operation(name)).Some?
    ensures exists ws1, ws2, inner :: IsOpMatch(s, i, MatchAt(s, i, Operation(name)).value, name, ws1, ws2, inner)
  {
    var e := MatchAt(s, i, Operation(name)).value;
    var k := SpacesEnd(s, i + 5);
    var ws1, ws2, inner := OpShapeOfParts(s, i, k, e, name);
  }

  /** Assembles the shape of an operation header from the pieces `MatchAt` checked. */
  lemma OpShapeOfParts(s: string, i: nat, k: nat, e: nat, name: Name) returns (ws1: string, ws2: string, inner: string)
    requires i + 5 < k && k + |name| <= e <= |s| && WordBoundary(s, i) && OccursAt(s, "query", i)
    requires forall j :: i + 5 <= j < k ==> IsSpace(s[j])
    requires OccursAt(s, name, k) && ArgListAt(s, k + |name|) == Some(e)
    ensures IsOpMatch(s, i, e, name, ws1, ws2, inner)
  {
    var c := k + |name|;
    ws2, inner := ArgListWitness(s, c);
    ws1 := s[i + 5..k];
    JoinSlice(s, k, c, e);
    JoinSlice(s, i + 5, k, e);
    JoinSlice(s, i, i + 5, e);
  }

  /** Text of the pattern's shape is matched, and the match ends where the shape does. */
  lemma OpMatchComplete(s: string, i: nat, e: nat, name: Name, ws1: string, ws2: string, inner: string)
    requires IsOpMatch(s, i, e, name, ws1, ws2, inner)
    ensures MatchAt(s, i, Operation(name)) == Some(e)
  {
    OpMatchParts(s, i, e, name, ws1, ws2, inner);
    OpMatchFromParts(s, i, e, name, |ws1|);
  }

  /** `MatchAt` accepts an operation header once each of its pieces is in place. */
  lemma OpMatchFromParts(s: string, i: nat, e: nat, name: Name, n: nat)
    requires i + 5 + n + |name| <= e <= |s| && WordBoundary(s, i)
    requires OccursAt(s, "query", i) && n > 0
    requires SpacesEnd(s, i + 5) == i + 5 + n
    requires OccursAt(s, name, i + 5 + n)
    requires ArgListAt(s, i + 5 + n + |name|) == Some(e)
    ensures MatchAt(s, i, Operation(name)) == Some(e)
  {
  }

  /** The pieces `MatchAt` checks, read off from a text of the operation pattern's shape. */
  lemma OpMatchParts(s: string, i: nat, e: nat, name: Name, ws1: string, ws2: string, inner: string)
    requires IsOpMatch(s, i, e, name, ws1, ws2, inner)
    ensures i + 5 + |ws1| + |name| <= e
    ensures OccursAt(s, "query", i) && |ws1| > 0
    ensures SpacesEnd(s, i + 5) == i + 5 + |ws1|
    ensures OccursAt(s, name, i + 5 + |ws1|)
    ensures ArgListAt(s, i + 5 + |ws1| + |name|) == Some(e)
  {
    SplitSlice(s, i, e, "query", ws1 + (name + ArgText(ws2, inner)));
    OpAfterQuery(s, i + 5, e, name, ws1, ws2, inner);
  }

  /** The part of an operation header after `query`: spaces, the name and the list. */
  lemma OpAfterQuery(s: string, a: nat, e: nat, name: Name, ws1: string, ws2: string, inner: string)
    requires a <= e <= |s| && s[a..e] == ws1 + (name + ArgText(ws2, inner))
    requires AllSpace(ws1) && AllSpace(ws2) && ParenFree(inner)
    ensures a + |ws1| + |name| <= e
    ensures SpacesEnd(s, a) == a + |ws1|
    ensures OccursAt(s, name, a + |ws1|)
    ensures ArgListAt(s, a + |ws1| + |name|) == Some(e)
  {
    var k := a + |ws1|;
    SplitSlice(s, a, e, ws1, name + ArgText(ws2, inner));
    var c := k + |name|;
    SplitSlice(s, k, e, name, ArgText(ws2, inner));
    OpSpaces(s, a, k, ws1, name);
    ArgListSpan(s, c, e, ws2, inner);
  }

  /** The spaces between `query` and the operation name end where the name starts. */
  lemma OpSpaces(s: string, a: nat, k: nat, ws1: string, name: Name)
    requires a <= k && k + |name| <= |s| && s[a..k] == ws1 && AllSpace(ws1) && s[k..k + |name|] == name
    ensures SpacesEnd(s, a) == k
  {
    forall j | a <= j < k ensures IsSpace(s[j]) {
      assert s[j] == s[a..k][j - a];
    }
    assert s[k] == s[k..k + |name|][0] == name[0];
    WordCharNotSpace(name[0]);
    SpacesEndAt(s, a, k);
  }

  /** Every field match has the shape of the pattern. */
  lemma FieldMatchSound(s: string, i: nat, name: Name)
    requires i <= |s| && MatchAt(s, i, Field(name)).Some?
    ensures exists ws, inner :: IsFieldMatch(s, i, MatchAt(s, i, Field(name)).value, name, ws, inner)
  {
    var e := MatchAt(s, i, Field(name)).value;
    var ws, inner := ArgListWitness(s, i + |name|);
    JoinSlice(s, i, i + |name|, e);
    assert IsFieldMatch(s, i, e, name, ws, inner);
  }

  /** Text of the field pattern's shape is matched, and the match ends where the shape does. */
  lemma FieldMatchComplete(s: string, i: nat, e: nat, name: Name, ws: string, inner: string)
    requires IsFieldMatch(s, i, e, name, ws, inner)
    ensures MatchAt(s, i, Field(name)) == Some(e)
  {
    SplitSlice(s, i, e, name, ArgText(ws, inner));
    ArgListSpan(s, i + |name|, e, ws, inner);
  }

  /**
    The output of a global replacement for `s[i..]`: every match, scanning left to right
    and resuming after each one, is replaced by the expansion of `rep`.
   */
  function ReplaceAllFrom(s: string, pat: Pattern, rep: string, i: nat): string
    requires i <= |s|
    decreases |s| - i
  {
    if i == |s| then ""
    else
      match MatchAt(s, i, pat)
      case Some(e) => Substitute(rep, s[i..e], s[..i], s[e..]) + ReplaceAllFrom(s, pat, rep, e)
      case None => [s[i]] + ReplaceAllFrom(s, pat, rep, i + 1)
  }

  /** `s.replace(new RegExp(<pat>, 'g'), rep)`. */
  function ReplaceAll(s: string, pat: Pattern, rep: string): string {
    ReplaceAllFrom(s, pat, rep, 0)
  }

  /** A position where no match starts copies its character. */
  lemma NoMatchStep(s: string, pat: Pattern, rep: string, i: nat)
    requires i < |s| && MatchAt(s, i, pat).None?
    ensures ReplaceAllFrom(s, pat, rep, i) == [s[i]] + ReplaceAllFrom(s, pat, rep, i + 1)
  {
  }

  /** Outputs that copy one character per position copy the whole stretch. */
  lemma {:induction false} CopiedStretch(s: string, out: nat -> string, i: nat, j: nat)
    requires i <= j <= |s|
    requires forall k :: i <= k < j ==> out(k) == [s[k]] + out(k + 1)
    ensures out(i) == s[i..j] + out(j)
    decreases j - i
  {
    if i < j {
      CopiedStretch(s, out, i + 1, j);
      assert s[i..j] == [s[i]] + s[i + 1..j];
    }
  }

  /** Text in which no match starts is copied unchanged. */
  lemma UnmatchedStretch(s: string, pat: Pattern, rep: string, i: nat, j: nat)
    requires i <= j <= |s|
    requires forall k :: i <= k < j ==> MatchAt(s, k, pat).None?
    ensures ReplaceAllFrom(s, pat, rep, i) == s[i..j] + ReplaceAllFrom(s, pat, rep, j)
  {
    var out := (k: nat) => if k <= |s| then ReplaceAllFrom(s, pat, rep, k) else "";
    forall k | i <= k < j ensures out(k) == [s[k]] + out(k + 1) {
      NoMatchStep(s, pat, rep, k);
    }
    CopiedStretch(s, out, i, j);
  }

  /** Text without a match comes out unchanged. */
  lemma NoMatchUnchanged(s: string, pat: Pattern, rep: string)
    requires forall k :: 0 <= k < |s| ==> MatchAt(s, k, pat).None?
    ensures ReplaceAll(s, pat, rep) == s
  {
    UnmatchedStretch(s, pat, rep, 0, |s|);
  }

  /**
    Every match is replaced, not only the first: with two matches and no other match
    before the second, both are rewritten and the text around them is kept.
   */
  lemma EveryMatchReplaced(s: string, pat: Pattern, rep: string, i1: nat, e1: nat, i2: nat, e2: nat)
    requires i1 < |s| && MatchAt(s, i1, pat) == Some(e1)
    requires e1 <= i2 < |s| && MatchAt(s, i2, pat) == Some(e2)
    requires forall k :: 0 <= k < i1 ==> MatchAt(s, k, pat).None?
    requires forall k :: e1 <= k < i2 ==> MatchAt(s, k, pat).None?
    ensures ReplaceAll(s, pat, rep) ==
      s[..i1] + (Substitute(rep, s[i1..e1], s[..i1], s[e1..]) +
      (s[e1..i2] + (Substitute(rep, s[i2..e2], s[..i2], s[e2..]) + ReplaceAllFrom(s, pat, rep, e2))))
  {
    var r1, r2 := ReplaceAllFrom(s, pat, rep, e1), ReplaceAllFrom(s, pat, rep, i2);
    UnmatchedStretch(s, pat, rep, 0, i1);
    assert s[0..i1] == s[..i1];
    MatchStep(s, pat, rep, i1);
    UnmatchedStretch(s, pat, rep, e1, i2);
    MatchStep(s, pat, rep, i2);
  }

  /** A match at `i` is replaced and scanning resumes at its end. */
  lemma MatchStep(s: string, pat: Pattern, rep: string, i: nat)
    requires i < |s| && MatchAt(s, i, pat).Some?
    ensures var e := MatchAt(s, i, pat).value;
      ReplaceAllFrom(s, pat, rep, i) == Substitute(rep, s[i..e], s[..i], s[e..]) + ReplaceAllFrom(s, pat, rep, e)
  {
  }

  /**
    With no match before the first one, the text before it is copied and a replacement
    without `$` patterns is inserted verbatim in its place.
   */
  lemma FirstMatchReplaced(s: string, pat: Pattern, rep: string, i: nat)
    requires i < |s| && MatchAt(s, i, pat).Some? && Plain(rep)
    requires forall k :: 0 <= k < i ==> MatchAt(s, k, pat).None?
    ensures ReplaceAll(s, pat, rep) == s[..i] + rep + ReplaceAllFrom(s, pat, rep, MatchAt(s, i, pat).value)
  {
    UnmatchedStretch(s, pat, rep, 0, i);
    MatchSpliced(s, pat, rep, i, MatchAt(s, i, pat).value);
  }

  /** A copied prefix followed by a match whose replacement is inserted verbatim. */
  lemma MatchSpliced(s: string, pat: Pattern, rep: string, i: nat, e: nat)
    requires i < |s| && MatchAt(s, i, pat) == Some(e) && Plain(rep)
    requires ReplaceAllFrom(s, pat, rep, 0) == s[0..i] + ReplaceAllFrom(s, pat, rep, i)
    ensures ReplaceAll(s, pat, rep) == s[..i] + rep + ReplaceAllFrom(s, pat, rep, e)
  {
    var tail := ReplaceAllFrom(s, pat, rep, e);
    MatchStep(s, pat, rep, i);
    SubstitutePlain(rep, s[i..e], s[..i], s[e..]);
    assert ReplaceAllFrom(s, pat, rep, i) == rep + tail;
    assert s[0..i] == s[..i];
    assert s[..i] + (rep + tail) == s[..i] + rep + tail;
  }

  /** The operation pattern only matches where the keyword `query` is written. */
  lemma NonQueryKeepsHeader(s: string, name: Name, rep: string)
    requires !Includes(s, "query")
    ensures ReplaceAll(s, Operation(name), rep) == s
  {
    forall k | 0 <= k < |s| ensures MatchAt(s, k, Operation(name)).None? {
      assert !OccursAt(s, "query", k);
    }
    NoMatchUnchanged(s, Operation(name), rep);
  }

  /** The name an operation is matched and printed under: `undefined` when anonymous. */
  function OpNameText(info: OperationInfo): Name {
    match info.operationName
    case None => "undefined"
    case Some(n) => n
  }

  /**
    An anonymous operation is matched under the name `undefined`, so unless the text
    spells that name the operation pattern leaves it unchanged. The field pattern is a
    separate pass and may still rewrite a header.
   */
  lemma AnonymousKeepsHeader(s: string, info: OperationInfo, rep: string)
    requires info.operationName.None? && !Includes(s, "undefined")
    ensures ReplaceAll(s, Operation(OpNameText(info)), rep) == s
  {
    forall k | 0 <= k < |s| ensures MatchAt(s, k, Operation("undefined")).None? {
      if k + 5 <= |s| {
        assert !OccursAt(s, "undefined", SpacesEnd(s, k + 5));
      }
    }
    NoMatchUnchanged(s, Operation("undefined"), rep);
  }

  /** `<operationType> <operationName>($<name>: <type>)`. */
  function OperationReplacement(info: OperationInfo, w: ArgWrapper): string {
    info.operationType + " " + OpNameText(info) + "($" + w.name + ": " + w.typeName + ")"
  }

  /** `<fieldName>(<name>: $<name>)`. */
  function FieldReplacement(info: OperationInfo, w: ArgWrapper): string {
    info.fieldName + "(" + w.name + ": $" + w.name + ")"
  }

  /** `wrapArgumentsInGql`: both rewrites when the wrapper has a name, none otherwise. */
  function WrapArguments(query: string, info: OperationInfo, w: ArgWrapper): (r: string)
    ensures w.name == "" ==> r == query
  {
    if w.name == "" then query
    else
      var once := ReplaceAll(query, Operation(OpNameText(info)), OperationReplacement(info, w));
      ReplaceAll(once, Field(info.fieldName), FieldReplacement(info, w))
  }

  /**
    The first operation header of the pattern's shape is replaced by the wrapped header,
    and the text before it is kept byte for byte.
   */
  lemma OperationHeaderRewritten(
    s: string, i: nat, e: nat, info: OperationInfo, w: ArgWrapper, ws1: string, ws2: string, inner: string)
    requires IsOpMatch(s, i, e, OpNameText(info), ws1, ws2, inner)
    requires forall k :: 0 <= k < i ==> MatchAt(s, k, Operation(OpNameText(info))).None?
    requires Plain(OperationReplacement(info, w))
    ensures var pat := Operation(OpNameText(info));
      ReplaceAll(s, pat, OperationReplacement(info, w)) ==
        s[..i] + OperationReplacement(info, w) + ReplaceAllFrom(s, pat, OperationReplacement(info, w), e)
  {
    OpMatchComplete(s, i, e, OpNameText(info), ws1, ws2, inner);
    FirstMatchReplaced(s, Operation(OpNameText(info)), OperationReplacement(info, w), i);
  }

  /** The wrapper's name, or the empty string when there is no wrapper. */
  function WrapperName(d: Directive): string {
    if d.argWrapper.Some? then d.argWrapper.value.name else ""
  }

  /** The variables before wrapping: the rendered `gqlVariables` template, else the incoming ones. */
  function VariablesSource(d: Directive, args: Entries<Value>, info: OperationInfo, template: Template)
    : (r: Result<Value, Cause>)
    ensures r.Err? ==> r.error.TemplateFailed?
    ensures d.gqlVariables.Some? && d.gqlVariables.value != "" && template(d.gqlVariables.value, args).Ok? ==>
      r == Ok(template(d.gqlVariables.value, args).value)
    ensures (d.gqlVariables.None? || d.gqlVariables.value == "") ==> r == Ok(info.variableValues)
  {
    if d.gqlVariables.Some? && d.gqlVariables.value != "" then
      match template(d.gqlVariables.value, args)
      case Ok(v) => Ok(v)
      case Err(e) => Err(TemplateFailed(e))
    else Ok(info.variableValues)
  }

  /** The variables sent: nested under the wrapper's name when it has one. */
  function SentVariables(d: Directive, args: Entries<Value>, info: OperationInfo, template: Template)
    : (r: Result<Value, Cause>)
    ensures r.Err? <==> VariablesSource(d, args, info, template).Err?
  {
    match VariablesSource(d, args, info, template)
    case Err(e) => Err(e)
    case Ok(v) => if WrapperName(d) != "" then Ok(Obj([(WrapperName(d), v)])) else Ok(v)
  }

  /** The request sent downstream: always a `POST` of the query and variables to the base URL. */
  datatype GqlRequest = GqlRequest(url: string, headers: Headers, query: string, variables: Value)

  /**
    What the resolver does before the fetch; `printed` is the printed operation. It fails
    exactly when the `gqlVariables` template does, and otherwise posts to the base URL
    with the outgoing headers, the printed operation with its arguments wrapped when a
    wrapper is configured, and the variables nested under the wrapper's name.
   */
  function BuildGqlRequest(
    d: Directive, opts: Options, info: OperationInfo, printed: string, args: Entries<Value>,
    template: Template, caller: CallerRequest): (r: Result<GqlRequest, Cause>)
    ensures r.Err? <==> VariablesSource(d, args, info, template).Err?
    ensures r.Err? ==> r.error.TemplateFailed?
    ensures r.Ok? ==> r.value.url == opts.baseURL && r.value.headers == ReqHeaders(d, opts, caller.headers)
    ensures r.Ok? ==>
      r.value.query == (if d.argWrapper.Some? then WrapArguments(printed, info, d.argWrapper.value) else printed)
    ensures r.Ok? && WrapperName(d) == "" ==> r.value.query == printed
    ensures r.Ok? ==> SentVariables(d, args, info, template) == Ok(r.value.variables)
  {
    var query := if d.argWrapper.Some? then WrapArguments(printed, info, d.argWrapper.value) else printed;
    match SentVariables(d, args, info, template)
    case Err(e) => Err(e)
    case Ok(v) => Ok(GqlRequest(opts.baseURL, ReqHeaders(d, opts, caller.headers), query, v))
  }

  /**
    The variables sent are an object whose only key is the wrapper's name, holding `v`,
    exactly when the wrapper has a name, and `v` itself otherwise; `v` is the rendered
    template if one is given and the incoming variables if not.
   */
  lemma VariablesWrappedIff(
    d: Directive, opts: Options, info: OperationInfo, printed: string, args: Entries<Value>,
    template: Template, caller: CallerRequest)
    requires BuildGqlRequest(d, opts, info, printed, args, template, caller).Ok?
    ensures VariablesSource(d, args, info, template).Ok?
    ensures var v := VariablesSource(d, args, info, template).value;
      var sent := BuildGqlRequest(d, opts, info, printed, args, template, caller).value.variables;
      (WrapperName(d) != "" ==>
        sent.Obj? && Keys(sent.fields) == [WrapperName(d)] && Prop(sent, WrapperName(d)) == v) &&
      (WrapperName(d) == "" ==> sent == v)
    ensures (d.gqlVariables.None? || d.gqlVariables.value == "") ==>
      VariablesSource(d, args, info, template) == Ok(info.variableValues)
    ensures d.gqlVariables.Some? && d.gqlVariables.value != "" ==>
      template(d.gqlVariables.value, args).Ok? &&
      VariablesSource(d, args, info, template) == Ok(template(d.gqlVariables.value, args).value)
  {
    var v := VariablesSource(d, args, info, template).value;
    var sent := BuildGqlRequest(d, opts, info, printed, args, template, caller).value.variables;
    if WrapperName(d) != "" {
      assert sent == Obj([(WrapperName(d), v)]);
      assert Keys(sent.fields) == [WrapperName(d)];
    }
  }

  /**
    With a named wrapper, the request's query is the printed operation with its first
    operation header rewritten, the text before it kept, and then every field call of
    the resolved field wrapped.
   */
  lemma SentQueryRewritesHeader(
    d: Directive, opts: Options, info: OperationInfo, printed: string, args: Entries<Value>,
    template: Template, caller: CallerRequest, w: ArgWrapper,
    i: nat, e: nat, ws1: string, ws2: string, inner: string)
    requires d.argWrapper == Some(w) && w.name != ""
    requires IsOpMatch(printed, i, e, OpNameText(info), ws1, ws2, inner)
    requires forall k :: 0 <= k < i ==> MatchAt(printed, k, Operation(OpNameText(info))).None?
    requires Plain(OperationReplacement(info, w))
    ensures var r := BuildGqlRequest(d, opts, info, printed, args, template, caller);
      var rep := OperationReplacement(info, w);
      var once := printed[..i] + rep + ReplaceAllFrom(printed, Operation(OpNameText(info)), rep, e);
      r.Ok? ==> r.value.query == ReplaceAll(once, Field(info.fieldName), FieldReplacement(info, w))
  {
    OperationHeaderRewritten(printed, i, e, info, w, ws1, ws2, inner);
  }

  /**
    The value of a parsed reply: the configured error class for truthy `errors`, built
    from the body's own `statusText` and `status`; otherwise `data[fieldName]` of the
    key-mapped body. `mapKeys` is the key-format mapping, not modelled here.
   */
  function GqlResult(body: Result<Value, Value>, fieldName: Name, mapKeys: Value -> Value): (r: Result<Value, Failure>)
    ensures r.Err? && r.error.Upstream? ==> body.Ok? && Truthy(Prop(body.value, "errors"))
  {
    match body
    case Err(e) => Err(Thrown(BodyReadFailed(e)))
    case Ok(b) =>
      if IsNullish(b) then Err(Thrown(TypeError("Cannot read properties of null (reading 'errors')")))
      else if Truthy(Prop(b, "errors")) then
        Err(Upstream(Prop(b, "statusText"), Prop(b, "status"), Prop(b, "errors")))
      else
        var mapped := mapKeys(b);
        if IsNullish(mapped) || IsNullish(Prop(mapped, "data")) then
          Err(Thrown(TypeError("Cannot read properties of undefined (reading '" + fieldName + "')")))
        else Ok(Prop(Prop(mapped, "data"), fieldName))
  }

  /** The reply's headers are copied whatever its status, and its body decides the value. */
  function HandleGqlResponse(resp: Response, fieldName: Name, mapKeys: Value -> Value): (o: Outcome)
    ensures o.propagated == ResHeaders(resp.rawHeaders)
  {
    Outcome(GqlResult(resp.json, fieldName, mapKeys), ResHeaders(resp.rawHeaders))
  }

  /** The HTTP status plays no part: a reply is judged by its body alone. */
  lemma StatusIgnored(resp: Response, status: int, statusText: string, fieldName: Name, mapKeys: Value -> Value)
    ensures HandleGqlResponse(resp.(status := status, statusText := statusText), fieldName, mapKeys) ==
      HandleGqlResponse(resp, fieldName, mapKeys)
  {
  }

  /**
    Truthy `errors`, an empty array included, raise the error class with those errors,
    and under the default class a body without `statusText` and `status` gives the
    default message and code.
   */
  lemma ErrorsRaise(b: Value, fieldName: Name, mapKeys: Value -> Value)
    requires !IsNullish(b) && Truthy(Prop(b, "errors"))
    ensures GqlResult(Ok(b), fieldName, mapKeys) == Err(Upstream(Prop(b, "statusText"), Prop(b, "status"), Prop(b, "errors")))
    ensures Prop(b, "statusText").Undefined? && Prop(b, "status").Undefined? ==>
      AsRestError(GqlResult(Ok(b), fieldName, mapKeys).error) == Some(RestError(Str("Error occured"), Num(400), Prop(b, "errors")))
    ensures !Prop(b, "statusText").Undefined? ==>
      AsRestError(GqlResult(Ok(b), fieldName, mapKeys).error).value.message == Str(ToJsString(Prop(b, "statusText")))
  {
  }

  /** An empty `errors` array still fails the call. */
  lemma EmptyErrorsArrayFails(m: Entries<Value>, fieldName: Name, mapKeys: Value -> Value)
    requires Lookup(m, "errors") == Some(Arr([]))
    ensures GqlResult(Ok(Obj(m)), fieldName, mapKeys).Err?
  {
  }

  /** Without errors, the value is the field's entry in the mapped body's `data`. */
  lemma FieldExtracted(b: Value, fieldName: Name, mapKeys: Value -> Value, dm: Entries<Value>)
    requires !IsNullish(b) && !Truthy(Prop(b, "errors"))
    requires Prop(mapKeys(b), "data") == Obj(dm) && !IsNullish(mapKeys(b))
    ensures GqlResult(Ok(b), fieldName, mapKeys) == Ok(Lookup(dm, fieldName).GetOr(Undefined))
  {
  }

  /**
    One call of a GraphQL-mode resolver: build the request, hand it to the transport
    `fetch`, and judge the reply by its body. The error class is raised only for a
    reply whose body carries truthy `errors`.
   */
  function ResolveGql(
    d: Directive, opts: Options, info: OperationInfo, printed: string, args: Entries<Value>,
    template: Template, caller: CallerRequest, fetch: GqlRequest -> Response, mapKeys: Value -> Value)
    : (o: Outcome)
    ensures o.result.Err? && o.result.error.Upstream? ==>
              var built := BuildGqlRequest(d, opts, info, printed, args, template, caller);
              built.Ok? && fetch(built.value).json.Ok? && Truthy(Prop(fetch(built.value).json.value, "errors"))
  {
    match BuildGqlRequest(d, opts, info, printed, args, template, caller)
    case Err(cause) => Outcome(Err(Thrown(cause)), [])
    case Ok(req) => HandleGqlResponse(fetch(req), info.fieldName, mapKeys)
  }

  /**
    Unlike a REST call, a GraphQL reply that reports errors still has its headers copied
    to the caller's response before the error class is raised.
   */
  lemma ErrorReplyStillCopiesHeaders(
    d: Directive, opts: Options, info: OperationInfo, printed: string, args: Entries<Value>,
    template: Template, caller: CallerRequest, fetch: GqlRequest -> Response, mapKeys: Value -> Value)
    requires BuildGqlRequest(d, opts, info, printed, args, template, caller).Ok?
    requires var resp := fetch(BuildGqlRequest(d, opts, info, printed, args, template, caller).value);
      resp.json.Ok? && !IsNullish(resp.json.value) && Truthy(Prop(resp.json.value, "errors"))
    ensures var resp := fetch(BuildGqlRequest(d, opts, info, printed, args, template, caller).value);
      var o := ResolveGql(d, opts, info, printed, args, template, caller, fetch, mapKeys);
      o.result == Err(Upstream(Prop(resp.json.value, "statusText"), Prop(resp.json.value, "status"), Prop(resp.json.value, "errors"))) &&
      o.propagated == ResHeaders(resp.rawHeaders)
  {
  }
}

=== FILE: paths.dfy ===
/**
  lodash's deep property access as the resolvers use it: `_.get(value, path)` to read a
  result root, an error root or a setter source, and `_.set(object, path, value)` to write
  a setter target. A path is a string; when it is not itself a property of the object it
  is split at every `.` into segments.
 */
module Paths {
  import opened Wrappers
  import opened Records
  import opened Text
  import opened Values

  /** The index of the first `.` in `p`. */
  function FirstDot(p: string): (i: nat)
    requires '.' in p
    ensures i < |p| && p[i] == '.' && '.' !in p[..i]
  {
    if p[0] == '.' then 0
    else
      var i := 1 + FirstDot(p[1..]);
      assert p[..i] == [p[0]] + p[1..][..i - 1];
      i
  }

  /** The segments of a dotted path. */
  function Split(p: string): (segs: seq<string>)
    ensures |segs| >= 1
    ensures '.' !in p ==> segs == [p]
    ensures '.' in p ==> |segs| > 1 && |segs[0]| < |p|
    decreases |p|
  {
    if '.' !in p then [p]
    else
      var i := FirstDot(p);
      [p[..i]] + Split(p[i + 1..])
  }

  /** The dotted path of some segments. */
  function Join(segs: seq<string>): string
    requires |segs| >= 1
  {
    if |segs| == 1 then segs[0] else segs[0] + "." + Join(segs[1..])
  }

  /** Splitting a path and joining the segments gives the path back. */
  lemma {:induction false} JoinSplit(p: string)
    ensures Join(Split(p)) == p
    decreases |p|
  {
    if '.' in p {
      var i := FirstDot(p);
      var segs, rest := Split(p), Split(p[i + 1..]);
      assert segs == [p[..i]] + rest;
      assert segs[1..] == rest;
      JoinSplit(p[i + 1..]);
      assert Join(segs) == p[..i] + "." + Join(rest);
      assert p == p[..i] + "." + p[i + 1..];
    }
  }

  /** Joining dot-free segments and splitting the result gives the segments back. */
  lemma {:induction false} SplitJoin(segs: seq<string>)
    requires |segs| >= 1
    requires forall i :: 0 <= i < |segs| ==> '.' !in segs[i]
    ensures Split(Join(segs)) == segs
    decreases |segs|
  {
    if |segs| > 1 {
      var p := Join(segs);
      var head := segs[0];
      SplitJoin(segs[1..]);
      assert p == head + "." + Join(segs[1..]);
      assert p[|head|] == '.';
      assert '.' in p;
      var i := FirstDot(p);
      assert p[..|head|] == head;
      assert i == |head|;
      assert p[i + 1..] == Join(segs[1..]);
    } else {
      assert '.' !in Join(segs);
    }
  }

  /** lodash's walk along path segments; a missing step reads as `undefined`. */
  function Walk(v: Value, segs: seq<string>): Value
    decreases |segs|
  {
    if |segs| == 0 then v else Walk(Prop(v, segs[0]), segs[1..])
  }

  /** `_.get(v, path)`: the path as one property if `v` has it, otherwise segment by segment. */
  function Get(v: Value, path: string): Value {
    if HasProp(v, path) then Prop(v, path) else Walk(v, Split(path))
  }

  /** lodash's `isObject` on the modelled values: objects and arrays. */
  predicate IsContainer(v: Value) {
    v.Obj? || v.Arr?
  }

  /**
    The container `_.set` writes into at a step: the value already there when it is an
    object or an array, otherwise a fresh array when the next key is an index and a fresh
    object when it is not.
   */
  function StepContainer(cur: Value, next: string): (c: Value)
    ensures IsContainer(c)
  {
    if IsContainer(cur) then cur else if ParseIndex(next).Some? then Arr([]) else Obj([])
  }

  /**
    `c[k] = x` on a container. An array index past the end extends the array, the holes
    reading as `undefined`; a key of an array that is not an index is not represented, so
    such a write leaves the array as it is.
   */
  function PutProp(c: Value, k: string, x: Value): (r: Value)
    requires IsContainer(c)
    ensures r.Obj? == c.Obj? && r.Arr? == c.Arr?
  {
    if c.Obj? then Obj(Put(c.fields, k, x))
    else if ParseIndex(k).None? then c
    else
      var i := ParseIndex(k).value;
      if i < |c.items| then Arr(c.items[i := x])
      else Arr(c.items + seq(i - |c.items|, _ => Undefined) + [x])
  }

  /** Distinct keys that both name array indices name distinct indices. */
  lemma DistinctIndices(k: string, k': string)
    requires k != k' && ParseIndex(k).Some? && ParseIndex(k').Some?
    ensures ParseIndex(k).value != ParseIndex(k').value
  {
    IndexNamesAreCanonical(k);
    IndexNamesAreCanonical(k');
  }

  /**
    A written key reads back the written value (an array needs an index key), and every
    other key reads as before, `length` of an array apart.
   */
  lemma PropAfterPut(c: Value, k: string, x: Value, k': string)
    requires IsContainer(c)
    ensures (c.Obj? || ParseIndex(k).Some?) && k' == k ==> Prop(PutProp(c, k, x), k') == x
    ensures k' != k && (c.Obj? || k' != "length") ==> Prop(PutProp(c, k, x), k') == Prop(c, k')
  {
    if c.Arr? && ParseIndex(k).Some? && k' != k && k' != "length" && ParseIndex(k').Some? {
      DistinctIndices(k, k');
    }
  }

  /**
    `_.set` below a container along `segs`: each step keeps an existing object or array
    and creates a fresh one otherwise, and a guarded key ends the walk without writing.
   */
  function SetIn(c: Value, segs: seq<string>, x: Value): (r: Value)
    requires IsContainer(c) && |segs| >= 1
    ensures r.Obj? == c.Obj? && r.Arr? == c.Arr?
    decreases |segs|
  {
    if Guarded(segs[0]) then c
    else if |segs| == 1 then PutProp(c, segs[0], x)
    else PutProp(c, segs[0], SetIn(StepContainer(Prop(c, segs[0]), segs[1]), segs[1..], x))
  }

  /** The segments `_.set(Obj(m), path, x)` walks: the path itself when it is a key of `m`. */
  function PathSegs(m: Entries<Value>, path: string): (segs: seq<string>)
    ensures |segs| >= 1
  {
    if Lookup(m, path).Some? then [path] else Split(path)
  }

  /** `_.set(Obj(m), path, x)`, returning the updated entries. */
  function SetPath(m: Entries<Value>, path: string, x: Value): Entries<Value> {
    SetIn(Obj(m), PathSegs(m, path), x).fields
  }

  /** Every step of `segs` below `c` is written: no guarded key, and only indices into arrays. */
  predicate Writable(c: Value, segs: seq<string>)
    requires IsContainer(c) && |segs| >= 1
    decreases |segs|
  {
    !Guarded(segs[0]) && (c.Arr? ==> ParseIndex(segs[0]).Some?) &&
    (|segs| > 1 ==> Writable(StepContainer(Prop(c, segs[0]), segs[1]), segs[1..]))
  }

  /** `_.set(Obj(m), path, _)` writes its value: every step of its path is written. */
  predicate CanSet(m: Entries<Value>, path: string) {
    Writable(Obj(m), PathSegs(m, path))
  }

  lemma {:induction false} WalkAfterSetIn(c: Value, segs: seq<string>, x: Value)
    requires IsContainer(c) && |segs| >= 1 && Writable(c, segs)
    ensures Walk(SetIn(c, segs, x), segs) == x
    decreases |segs|
  {
    if |segs| == 1 {
      PropAfterPut(c, segs[0], x, segs[0]);
    } else {
      var child := StepContainer(Prop(c, segs[0]), segs[1]);
      WalkAfterSetIn(child, segs[1..], x);
      PropAfterPut(c, segs[0], SetIn(child, segs[1..], x), segs[0]);
    }
  }

  /** What `_.set` writes at a path, `_.get` reads back from the same path. */
  lemma GetAfterSet(m: Entries<Value>, path: string, x: Value)
    requires CanSet(m, path)
    ensures Get(Obj(SetPath(m, path, x)), path) == x
  {
    var segs := PathSegs(m, path);
    WalkAfterSetIn(Obj(m), segs, x);
    if Lookup(m, path).None? && '.' in path {
      assert segs[0] != path;
    }
  }

  /** A path whose first step is guarded leaves the object unchanged. */
  lemma GuardedPathUnchanged(m: Entries<Value>, path: string, x: Value)
    requires Guarded(PathSegs(m, path)[0])
    ensures SetPath(m, path, x) == m
  {
  }

  /** `_.set` changes no top-level key other than the path itself or its first segment. */
  lemma SetPathFrame(m: Entries<Value>, path: string, x: Value, k: string)
    requires k != path && k != Split(path)[0]
    ensures Lookup(SetPath(m, path, x), k) == Lookup(m, k)
  {
  }

  /** The steps of `segs` before index `j` all lead from `c` to objects or arrays. */
  predicate ContainersUpTo(c: Value, segs: seq<string>, j: nat)
    decreases j
  {
    IsContainer(c) && (j > 0 && |segs| > 0 ==> ContainersUpTo(Prop(c, segs[0]), segs[1..], j - 1))
  }

  /**
    A path `q` that leaves the written path at step `j`, below containers that already
    existed, reads as before.
   */
  lemma {:induction false} SetInFrame(c: Value, segs: seq<string>, x: Value, q: seq<string>, j: nat)
    requires |segs| >= 1 && j < |segs| && j < |q| && ContainersUpTo(c, segs, j)
    requires q[..j] == segs[..j] && q[j] != segs[j] && q[j] != "length"
    ensures Walk(SetIn(c, segs, x), q) == Walk(c, q)
    decreases j
  {
    var r := SetIn(c, segs, x);
    if Guarded(segs[0]) || (c.Arr? && ParseIndex(segs[0]).None?) {
      assert r == c;
    } else if j == 0 {
      var y := if |segs| == 1 then x else SetIn(StepContainer(Prop(c, segs[0]), segs[1]), segs[1..], x);
      assert r == PutProp(c, segs[0], y);
      PropAfterPut(c, segs[0], y, q[0]);
    } else {
      assert q[0] == q[..j][0] == segs[..j][0] == segs[0];
      SetInDescends(c, segs, x);
      assert q[1..][..j - 1] == segs[1..][..j - 1];
      SetInFrame(Prop(c, segs[0]), segs[1..], x, q[1..], j - 1);
    }
  }

  /** Below an existing object or array, `_.set` writes into it rather than replacing it. */
  lemma SetInDescends(c: Value, segs: seq<string>, x: Value)
    requires |segs| >= 2 && IsContainer(c) && IsContainer(Prop(c, segs[0]))
    requires !Guarded(segs[0]) && (c.Arr? ==> ParseIndex(segs[0]).Some?)
    ensures Prop(SetIn(c, segs, x), segs[0]) == SetIn(Prop(c, segs[0]), segs[1..], x)
  {
    var child := Prop(c, segs[0]);
    assert StepContainer(child, segs[1]) == child;
    var y := SetIn(child, segs[1..], x);
    assert SetIn(c, segs, x) == PutProp(c, segs[0], y);
    PropAfterPut(c, segs[0], y, segs[0]);
  }

  /**
    `_.set` leaves alone every value that a segment-by-segment read reaches by leaving
    the written path below objects or arrays that already existed: the siblings of the
    written value, at any depth, keep their values.
   */
  lemma SetPathNestedFrame(m: Entries<Value>, path: string, x: Value, q: seq<string>, j: nat)
    requires j < |PathSegs(m, path)| && j < |q| && ContainersUpTo(Obj(m), PathSegs(m, path), j)
    requires q[..j] == PathSegs(m, path)[..j] && q[j] != PathSegs(m, path)[j] && q[j] != "length"
    ensures Walk(Obj(SetPath(m, path, x)), q) == Walk(Obj(m), q)
  {
    SetInFrame(Obj(m), PathSegs(m, path), x, q, j);
  }
}

=== FILE: records.dfy ===
/**
  Ordered string-keyed entries: the model of a JavaScript object's own enumerable
  properties, which keep insertion order. Reading follows object-literal semantics, so
  when a key appears twice the later entry is the one that counts; writing an existing
  key replaces that entry where it stands, writing a new key appends it.
 */
module Records {
  import opened Wrappers

  type Entries<V> = seq<(string, V)>

  /** The keys in entry order (`Object.keys`). */
  function Keys<V>(m: Entries<V>): seq<string> {
    seq(|m|, i requires 0 <= i < |m| => m[i].0)
  }

  /** Property read `m[k]`: the value of the last entry named `k`, if any. */
  function Lookup<V>(m: Entries<V>, k: string): (r: Option<V>)
    ensures r.Some? <==> k in Keys(m)
    ensures r.Some? ==> exists i :: 0 <= i < |m| && m[i] == (k, r.value)
    decreases |m|
  {
    if |m| == 0 then None
    else
      KeysSnoc(m[..|m| - 1], m[|m| - 1]);
      assert m == m[..|m| - 1] + [m[|m| - 1]];
      if m[|m| - 1].0 == k then Some(m[|m| - 1].1)
      else Lookup(m[..|m| - 1], k)
  }

  lemma KeysSnoc<V>(a: Entries<V>, e: (string, V))
    ensures Keys(a + [e]) == Keys(a) + [e.0]
  {
  }

  lemma LookupSnoc<V>(a: Entries<V>, e: (string, V), k: string)
    ensures Lookup(a + [e], k) == if e.0 == k then Some(e.1) else Lookup(a, k)
  {
    assert (a + [e])[..|a|] == a;
  }

  /** Property write `m[k] = v`. */
  function Put<V>(m: Entries<V>, k: string, v: V): (r: Entries<V>)
    ensures forall k' :: Lookup(r, k') == if k' == k then Some(v) else Lookup(m, k')
    ensures k in Keys(m) ==> Keys(r) == Keys(m)
    ensures k !in Keys(m) ==> Keys(r) == Keys(m) + [k]
    decreases |m|
  {
    if k !in Keys(m) then
      KeysSnoc(m, (k, v));
      assert forall k' :: Lookup(m + [(k, v)], k') == LookupSnocValue(m, (k, v), k');
      m + [(k, v)]
    else
      var init, last := m[..|m| - 1], m[|m| - 1];
      assert m == init + [last];
      KeysSnoc(init, last);
      if last.0 == k then
        KeysSnoc(init, (k, v));
        assert forall k' :: Lookup(init + [(k, v)], k') == LookupSnocValue(init, (k, v), k');
        assert forall k' :: Lookup(m, k') == LookupSnocValue(init, last, k');
        init + [(k, v)]
      else
        var rest := Put(init, k, v);
        KeysSnoc(rest, last);
        assert forall k' :: Lookup(rest + [last], k') == LookupSnocValue(rest, last, k');
        assert forall k' :: Lookup(m, k') == LookupSnocValue(init, last, k');
        rest + [last]
  }

  /** The right-hand side of `LookupSnoc`, with that lemma as its contract. */
  function LookupSnocValue<V>(a: Entries<V>, e: (string, V), k: string): (r: Option<V>)
    ensures Lookup(a + [e], k) == r
  {
    LookupSnoc(a, e, k);
    if e.0 == k then Some(e.1) else Lookup(a, k)
  }

  /**
    `Object.assign(m, src)`, also the spread `{...m, ...src}`: every entry of `src` is
    written into `m` in order, so a key of `src` wins over the same key of `m`, and the
    keys `m` already had keep their positions.
   */
  function Assign<V>(m: Entries<V>, src: Entries<V>): (r: Entries<V>)
    ensures forall k :: Lookup(r, k) == if Lookup(src, k).Some? then Lookup(src, k) else Lookup(m, k)
    ensures |Keys(m)| <= |Keys(r)| && Keys(r)[..|Keys(m)|] == Keys(m)
    decreases |src|
  {
    if |src| == 0 then m
    else
      var init, last := src[..|src| - 1], src[|src| - 1];
      assert src == init + [last];
      assert forall k :: Lookup(src, k) == LookupSnocValue(init, last, k);
      var acc := Assign(m, init);
      var r := Put(acc, last.0, last.1);
      assert |Keys(acc)| <= |Keys(r)| && Keys(r)[..|Keys(acc)|] == Keys(acc);
      r
  }

  /**
    Keys at which lodash's `baseSet` stops without writing, its guard against prototype
    pollution. Everything lodash builds through it (`_.set`, `_.pick`, `_.pickBy`) skips them.
   */
  predicate Guarded(k: string) {
    k == "__proto__" || k == "constructor" || k == "prototype"
  }

  /**
    `_.pickBy` on keys: the entries whose key satisfies `keep`, in their original order,
    less the guarded keys, which `baseSet` refuses to write into the fresh result.
   */
  function FilterKeys<V>(m: Entries<V>, keep: string -> bool): (r: Entries<V>)
    ensures forall k :: Lookup(r, k) == if keep(k) && !Guarded(k) then Lookup(m, k) else None
    ensures forall i :: 0 <= i < |r| ==> keep(r[i].0) && !Guarded(r[i].0)
    decreases |m|
  {
    if |m| == 0 then []
    else
      var init, last := m[..|m| - 1], m[|m| - 1];
      assert m == init + [last];
      assert forall k :: Lookup(m, k) == LookupSnocValue(init, last, k);
      var rest := FilterKeys(init, keep);
      if keep(last.0) && !Guarded(last.0) then
        assert forall k :: Lookup(rest + [last], k) == LookupSnocValue(rest, last, k);
        rest + [last]
      else rest
  }

  /** Every value passed through `f`, keys and order unchanged (`_.mapValues`). */
  function MapValues<A, B>(m: Entries<A>, f: A -> B): (r: Entries<B>)
    ensures Keys(r) == Keys(m)
    ensures forall k :: Lookup(r, k) == if Lookup(m, k).Some? then Some(f(Lookup(m, k).value)) else None
    decreases |m|
  {
    if |m| == 0 then []
    else
      var init, last := m[..|m| - 1], m[|m| - 1];
      assert m == init + [last];
      assert forall k :: Lookup(m, k) == LookupSnocValue(init, last, k);
      var rest := MapValues(init, f);
      var e := (last.0, f(last.1));
      assert forall k :: Lookup(rest + [e], k) == LookupSnocValue(rest, e, k);
      KeysSnoc(init, last);
      KeysSnoc(rest, e);
      rest + [e]
  }
}

=== FILE: rest_request.dfy ===
/**
  The request half of a REST-mode resolver (src/rest-resolver.ts): the arguments a call
  sees, the downstream URL with its `$name` placeholders filled in, the body chosen and
  encoded for the content type, the multipart boundary added to the `Content-Type`
  header, and the override that forwards a caller's text body unchanged.
 */
module RestRequest {
  import opened Wrappers
  import opened Records
  import opened Text
  import opened Values
  import opened Common

  /**
    `{...args, ...source?.__args}`: the field's own arguments overridden by those a parent
    result carries under `__args`.
   */
  function EffectiveArgs(source: Value, args: Entries<Value>): Entries<Value> {
    Assign(args, OwnEntries(Prop(source, "__args")))
  }

  /** A parent's `__args` win over the field's own arguments of the same name. */
  lemma InheritedArgsWin(source: Value, args: Entries<Value>, k: string)
    requires source.Obj? && Prop(source, "__args").Obj?
    ensures Lookup(EffectiveArgs(source, args), k) ==
      if Lookup(Prop(source, "__args").fields, k).Some? then Lookup(Prop(source, "__args").fields, k)
      else Lookup(args, k)
  {
  }

  /** Without a parent (or a parent without `__args`) the field's own arguments are used as they are. */
  lemma NoParentArgs(source: Value, args: Entries<Value>)
    requires IsNullish(source) || (source.Obj? && Lookup(source.fields, "__args").None?)
    ensures EffectiveArgs(source, args) == args
  {
  }

  /** The text an argument contributes to the URL: nothing for objects, arrays and `null`. */
  function UrlText(v: Value): string {
    if IsObjectType(v) then "" else ToJsString(v)
  }

  /** One placeholder step: the first `$name` in `url` replaced, if `url` has one. */
  function SubstituteArg(url: string, arg: (string, Value)): string {
    var placeholder := "$" + arg.0;
    if !Includes(url, placeholder) then url
    else ReplaceFirst(url, placeholder, UrlText(arg.1))
  }

  /** The placeholder steps for every argument, in key order. */
  function SubstituteUrl(url: string, args: Entries<Value>): string
    decreases |args|
  {
    if |args| == 0 then url
    else SubstituteArg(SubstituteUrl(url, args[..|args| - 1]), args[|args| - 1])
  }

  lemma DollarFree(s: string, p: string, i: nat)
    requires '$' !in s && |p| > 0 && p[0] == '$'
    ensures !OccursAt(s, p, i)
  {
    if i + |p| <= |s| {
      assert s[i..i + |p|][0] == s[i] != '$';
    }
  }

  /**
    Arguments whose placeholder does not occur leave the URL unchanged, and a placeholder
    no argument names stays in place; in particular a URL without `$` never changes.
   */
  lemma {:induction false} UnmatchedArgumentsIgnored(url: string, args: Entries<Value>)
    requires forall i :: 0 <= i < |args| ==> !Includes(url, "$" + args[i].0)
    ensures SubstituteUrl(url, args) == url
    decreases |args|
  {
    if |args| > 0 {
      var init := args[..|args| - 1];
      assert forall i :: 0 <= i < |init| ==> init[i] == args[i];
      UnmatchedArgumentsIgnored(url, init);
    }
  }

  /** A URL without `$` comes out unchanged, whatever the arguments. */
  lemma DollarFreeUrl(url: string, args: Entries<Value>)
    requires '$' !in url
    ensures SubstituteUrl(url, args) == url
  {
    forall i | 0 <= i < |args| ensures !Includes(url, "$" + args[i].0) {
      forall j: nat ensures !OccursAt(url, "$" + args[i].0, j) {
        DollarFree(url, "$" + args[i].0, j);
      }
    }
    UnmatchedArgumentsIgnored(url, args);
  }

  /** Arguments are substituted one after the other, in key order. */
  lemma {:induction false} SubstituteInOrder(url: string, a: Entries<Value>, b: Entries<Value>)
    ensures SubstituteUrl(url, a + b) == SubstituteUrl(SubstituteUrl(url, a), b)
    decreases |b|
  {
    if |b| == 0 {
      assert a + b == a;
    } else {
      var init := b[..|b| - 1];
      assert (a + b)[..|a + b| - 1] == a + init;
      assert (a + b)[|a + b| - 1] == b[|b| - 1];
      SubstituteInOrder(url, a, init);
    }
  }

  /**
    A single argument fills the first occurrence of its `$name`, wherever it stands, with
    the argument's text, expanded as a replacement pattern with the text around it.
   */
  lemma SingleArgument(pre: string, k: string, post: string, v: Value)
    requires FirstAt(pre + "$" + k + post, "$" + k, |pre|)
    ensures SubstituteUrl(pre + "$" + k + post, [(k, v)]) ==
      pre + Substitute(UrlText(v), "$" + k, pre, post) + post
  {
    var url, p := pre + "$" + k + post, "$" + k;
    assert url == pre + p + post;
    assert url[..|pre|] == pre && url[|pre| + |p|..] == post;
    assert Includes(url, p);
    OneArgument(url, (k, v));
  }

  /** An occurrence of `$name` after text without `$` is its first one. */
  lemma DollarFreePrefix(pre: string, k: string, post: string)
    requires '$' !in pre
    ensures FirstAt(pre + "$" + k + post, "$" + k, |pre|)
  {
    assert pre + "$" + k + post == pre + ("$" + k) + post;
    FirstOccurrenceAfter(pre, "$" + k, post);
  }

  /** A scalar whose string form has no replacement pattern is inserted verbatim. */
  lemma PlainArgumentVerbatim(pre: string, k: string, post: string, v: Value)
    requires FirstAt(pre + "$" + k + post, "$" + k, |pre|) && Plain(UrlText(v))
    ensures SubstituteUrl(pre + "$" + k + post, [(k, v)]) == pre + UrlText(v) + post
  {
    SingleArgument(pre, k, post, v);
    SubstitutePlain(UrlText(v), "$" + k, pre, post);
  }

  /** A string argument holding `$$` puts a single `$` into the URL. */
  lemma DollarArgumentCollapses(pre: string, k: string, post: string, a: string, b: string)
    requires FirstAt(pre + "$" + k + post, "$" + k, |pre|) && '$' !in a && Plain(b)
    ensures SubstituteUrl(pre + "$" + k + post, [(k, Str(a + "$$" + b))]) == pre + a + "$" + b + post
  {
    DoubleDollarCollapses(a, b, "$" + k, pre, post);
    StringArgumentSpliced(pre, k, post, a + "$$" + b, a + "$" + b);
    assert pre + (a + "$" + b) + post == pre + a + "$" + b + post;
  }

  /** The URL is the text around the placeholder with the expanded string argument between. */
  lemma StringArgumentSpliced(pre: string, k: string, post: string, s: string, t: string)
    requires FirstAt(pre + "$" + k + post, "$" + k, |pre|)
    requires Substitute(s, "$" + k, pre, post) == t
    ensures SubstituteUrl(pre + "$" + k + post, [(k, Str(s))]) == pre + t + post
  {
    assert UrlText(Str(s)) == s;
    SingleArgument(pre, k, post, Str(s));
  }

  /** An object, array or `null` argument erases its placeholder. */
  lemma ObjectArgumentErased(pre: string, k: string, post: string, v: Value)
    requires FirstAt(pre + "$" + k + post, "$" + k, |pre|) && IsObjectType(v)
    ensures SubstituteUrl(pre + "$" + k + post, [(k, v)]) == pre + post
  {
    SingleArgument(pre, k, post, v);
    assert Substitute(UrlText(v), "$" + k, pre, post) == "";
  }

  /** A single argument is one placeholder step. */
  lemma OneArgument(url: string, arg: (string, Value))
    ensures SubstituteUrl(url, [arg]) == SubstituteArg(url, arg)
  {
    assert [arg][..0] == [];
  }

  /** Only the first occurrence of a placeholder is filled; a repeated one stays in place. */
  lemma OnlyFirstOccurrence(pre: string, k: string, mid: string, v: Value)
    requires FirstAt(pre + "$" + k + (mid + "$" + k), "$" + k, |pre|) && Plain(UrlText(v))
    ensures SubstituteUrl(pre + "$" + k + (mid + "$" + k), [(k, v)]) == pre + UrlText(v) + (mid + "$" + k)
  {
    PlainArgumentVerbatim(pre, k, mid + "$" + k, v);
  }

  /** A placeholder also matches the start of a longer name: `$id` fills inside `$idx`. */
  lemma PlaceholderPrefixMatch()
    ensures SubstituteUrl("/u/$idx", [("id", Str("7"))]) == "/u/7x"
  {
    assert "/u/$idx" == "/u/" + "$" + "id" + "x";
    assert Plain(UrlText(Str("7"))) by {
      assert UrlText(Str("7")) == "7";
    }
    DollarFreePrefix("/u/", "id", "x");
    PlainArgumentVerbatim("/u/", "id", "x", Str("7"));
    assert "/u/" + "7" + "x" == "/u/7x";
  }

  /** The HTTP method; `GET` when the directive gives none. */
  function MethodOf(d: Directive): string {
    d.httpMethod.GetOr("GET")
  }

  /** Whether the request carries a body: every method except `GET` and `HEAD`. */
  predicate SendsBody(d: Directive) {
    MethodOf(d) != "GET" && MethodOf(d) != "HEAD"
  }

  /**
    The template engine together with `JSON.parse`: renders a `postbody` template with
    the arguments and parses the text, or fails with the exception either raised.
   */
  type Template = (string, Entries<Value>) -> Result<Value, Value>

  /**
    `autogenerateBody`: `_.pick` of every own argument name, which copies each argument
    except those whose name `baseSet` refuses to write.
   */
  function AutoBody(args: Entries<Value>): (r: Entries<Value>)
    ensures forall k :: Lookup(r, k) == if Guarded(k) then None else Lookup(args, k)
    ensures forall i :: 0 <= i < |r| ==> !Guarded(r[i].0)
  {
    FilterKeys(args, (k: string) => true)
  }

  /** The body before encoding: the rendered `postbody` if one is given, else the picked arguments. */
  function BodyValue(d: Directive, args: Entries<Value>, template: Template): (r: Result<Value, Cause>)
    ensures (d.postBody.None? || d.postBody.value == "") ==> r == Ok(Obj(AutoBody(args)))
    ensures d.postBody.Some? && d.postBody.value != "" && template(d.postBody.value, args).Ok? ==>
      r == Ok(template(d.postBody.value, args).value)
    ensures r.Err? ==> r.error.TemplateFailed?
  {
    match d.postBody
    case Some(t) =>
      if t != "" then
        match template(t, args)
        case Ok(v) => Ok(v)
        case Err(e) => Err(TemplateFailed(e))
      else Ok(Obj(AutoBody(args)))
    case None => Ok(Obj(AutoBody(args)))
  }

  /** A URL-encoded form field: sent as is, or `JSON.stringify`d first. */
  datatype FormValue = Kept(v: Value) | Stringified(v: Value)

  /** A multipart part: a string value, or the `JSON.stringify` of any other value. */
  datatype PartValue = TextPart(s: string) | JsonPart(v: Value)

  /**
    What goes to the transport as the request body. The serialisers themselves
    (`JSON.stringify`, `URLSearchParams`, `FormData`) are not modelled; each payload
    names the value it serialises. A multipart form has a boundary once a part is added.
   */
  datatype Payload =
    | NoBody
    | JsonText(v: Value)
    | FormText(fields: Entries<FormValue>)
    | MultipartForm(parts: Entries<PartValue>, boundary: Option<string>)
    | Verbatim(v: Value)
    | CallerBody(v: Value)

  function FormValueOf(v: Value): FormValue {
    if IsObjectType(v) then Stringified(v) else Kept(v)
  }

  function PartValueOf(v: Value): PartValue {
    if v.Str? then TextPart(v.s) else JsonPart(v)
  }

  /** `formatForContentType`: the body encoded for the resolver's content type. */
  function Encode(body: Value, contentType: string, boundary: string): (r: Result<Payload, Cause>)
    ensures r.Err? <==> contentType == "multipart/form-data" && IsNullish(body)
    ensures r.Ok? && r.value.MultipartForm? ==>
      Keys(r.value.parts) == Keys(OwnEntries(body)) && (r.value.boundary.Some? <==> |OwnEntries(body)| > 0)
    ensures r.Ok? && r.value.FormText? ==> Keys(r.value.fields) == Keys(OwnEntries(body))
    ensures contentType == "application/json" ==> r == Ok(JsonText(body))
    ensures contentType !in ["application/json", "application/x-www-form-urlencoded", "multipart/form-data"] ==>
      r == Ok(Verbatim(body))
  {
    if contentType == "application/json" then Ok(JsonText(body))
    else if contentType == "application/x-www-form-urlencoded" then
      Ok(FormText(MapValues(OwnEntries(body), FormValueOf)))
    else if contentType == "multipart/form-data" then
      if IsNullish(body) then Err(TypeError("Cannot convert undefined or null to object"))
      else
        var parts := MapValues(OwnEntries(body), PartValueOf);
        assert |Keys(parts)| == |parts|;
        Ok(MultipartForm(parts, if |parts| > 0 then Some(boundary) else None))
    else Ok(Verbatim(body))
  }

  /**
    Each URL-encoded field keeps its argument's name; exactly the object-typed values
    (objects, arrays, `null`) are stringified.
   */
  lemma FormFields(body: Value, boundary: string, k: string)
    requires Lookup(OwnEntries(body), k).Some?
    ensures var r := Encode(body, "application/x-www-form-urlencoded", boundary);
      r.Ok? && r.value.FormText? && Lookup(r.value.fields, k).Some? &&
      (Lookup(r.value.fields, k).value.Stringified? <==> IsObjectType(Lookup(OwnEntries(body), k).value)) &&
      Lookup(r.value.fields, k).value.v == Lookup(OwnEntries(body), k).value
  {
  }

  /** Each multipart part holds its value's text: strings as they are, the rest as JSON. */
  lemma MultipartParts(body: Value, boundary: string, k: string)
    requires !IsNullish(body) && Lookup(OwnEntries(body), k).Some?
    ensures var r := Encode(body, "multipart/form-data", boundary);
      var v := Lookup(OwnEntries(body), k).value;
      r.Ok? && r.value.MultipartForm? &&
      Lookup(r.value.parts, k) == Some(if v.Str? then TextPart(v.s) else JsonPart(v))
  {
  }

  /** `body._boundary`, or the TypeError of reading a property of a missing body. */
  function BoundaryProp(p: Payload): Result<Value, Cause> {
    match p
    case NoBody => Err(TypeError("Cannot read properties of undefined (reading '_boundary')"))
    case JsonText(_) => Ok(Undefined)
    case FormText(_) => Ok(Undefined)
    case MultipartForm(_, b) => Ok(if b.Some? then Str(b.value) else Undefined)
    case Verbatim(v) =>
      if IsNullish(v) then Err(TypeError("Cannot read properties of null (reading '_boundary')"))
      else Ok(Prop(v, "_boundary"))
    case CallerBody(v) => Ok(Prop(v, "_boundary"))
  }

  /**
    A `Content-Type` of exactly `multipart/form-data` gets the body's boundary appended
    when the body has a truthy one; the body is consulted only in that case.
   */
  function WithBoundary(h: Headers, p: Payload): (r: Result<Headers, Cause>)
    ensures Lookup(h, "Content-Type") != Some("multipart/form-data") ==> r == Ok(h)
    ensures r.Ok? ==> forall k :: k != "Content-Type" ==> Lookup(r.value, k) == Lookup(h, k)
  {
    if Lookup(h, "Content-Type") == Some("multipart/form-data") then
      match BoundaryProp(p)
      case Err(e) => Err(e)
      case Ok(b) =>
        if Truthy(b) then Ok(Put(h, "Content-Type", "multipart/form-data; boundary=" + ToJsString(b)))
        else Ok(h)
    else Ok(h)
  }

  /** The first name in `keys` that lower-cases to `content-type`. */
  function FirstContentTypeKey(keys: seq<string>): (r: Option<string>)
    ensures r.None? <==> forall i :: 0 <= i < |keys| ==> Lower(keys[i]) != "content-type"
    ensures r.Some? ==> Lower(r.value) == "content-type"
    ensures r.Some? ==>
              exists i :: 0 <= i < |keys| && keys[i] == r.value &&
                forall j :: 0 <= j < i ==> Lower(keys[j]) != "content-type"
    decreases |keys|
  {
    if |keys| == 0 then None
    else if Lower(keys[0]) == "content-type" then Some(keys[0])
    else
      var r := FirstContentTypeKey(keys[1..]);
      assert forall i :: 0 < i < |keys| ==> keys[i] == keys[1..][i - 1];
      r
  }

  /**
    The caller's original `Content-Type` (under its first spelling) when it mentions
    `text/`: then the caller's body is forwarded with that content type.
   */
  function TextOverride(originalHeaders: Headers): (r: Option<string>)
    ensures r.Some? ==> Includes(r.value, "text/")
    ensures var k := FirstContentTypeKey(Keys(originalHeaders));
      r.Some? <==>
        (k.Some? && Lookup(originalHeaders, k.value).Some? && Includes(Lookup(originalHeaders, k.value).value, "text/"))
    ensures r.Some? ==> r == Lookup(originalHeaders, FirstContentTypeKey(Keys(originalHeaders)).value)
  {
    match FirstContentTypeKey(Keys(originalHeaders))
    case None => None
    case Some(k) =>
      assert Lookup(originalHeaders, k).Some?;
      var v := Lookup(originalHeaders, k).value;
      if Includes(v, "text/") then Some(v) else None
  }

  /**
    Only the first spelling of `Content-Type` in the caller's original headers counts:
    when it mentions `text/` its value is the override, and when it does not there is
    no override, whatever later spellings say.
   */
  lemma FirstSpellingDecides(pre: Headers, k: string, v: string, post: Headers)
    requires forall i :: 0 <= i < |pre| ==> Lower(pre[i].0) != "content-type"
    requires Lower(k) == "content-type" && Lookup(post, k).None?
    ensures TextOverride(pre + [(k, v)] + post) == if Includes(v, "text/") then Some(v) else None
  {
    var h := pre + [(k, v)] + post;
    FirstKeyAt(pre, k, v, post);
    LookupSnoc(pre, (k, v), k);
    LookupAfterAbsent(pre + [(k, v)], post, k);
  }

  lemma FirstKeyAt(pre: Headers, k: string, v: string, post: Headers)
    requires forall i :: 0 <= i < |pre| ==> Lower(pre[i].0) != "content-type"
    requires Lower(k) == "content-type"
    ensures FirstContentTypeKey(Keys(pre + [(k, v)] + post)) == Some(k)
  {
    var keys := Keys(pre + [(k, v)] + post);
    var r := FirstContentTypeKey(keys);
    assert keys[|pre|] == k;
  }

  /** Entries appended without key `k` do not change what `k` reads. */
  lemma {:induction false} LookupAfterAbsent<V>(a: Entries<V>, b: Entries<V>, k: string)
    requires Lookup(b, k).None?
    ensures Lookup(a + b, k) == Lookup(a, k)
    decreases |b|
  {
    if |b| > 0 {
      var init, last := b[..|b| - 1], b[|b| - 1];
      assert b == init + [last];
      assert a + b == (a + init) + [last];
      LookupSnoc(a + init, last, k);
      LookupSnoc(init, last, k);
      LookupAfterAbsent(a, init, k);
    } else {
      assert a + b == a;
    }
  }

  /** An outbound request as handed to the transport. */
  datatype Request = Request(url: string, httpMethod: string, headers: Headers, body: Payload)

  /** The request together with the arguments the call used, which tag its result. */
  datatype Prepared = Prepared(request: Request, args: Entries<Value>)

  /** The body as encoded for the content type; none for `GET` and `HEAD`. */
  function EncodedBody(d: Directive, opts: Options, template: Template, boundary: string, args: Entries<Value>)
    : (r: Result<Payload, Cause>)
    ensures !SendsBody(d) ==> r == Ok(NoBody)
    ensures r.Err? ==> r.error.TemplateFailed? || r.error.TypeError?
  {
    if SendsBody(d) then
      match BodyValue(d, args, template)
      case Err(e) => Err(e)
      case Ok(v) => Encode(v, EffectiveContentType(d, opts), boundary)
    else Ok(NoBody)
  }

  /**
    The last touches before the fetch: the multipart boundary, then the caller's text
    content type and body replacing what was built.
   */
  function Finish(h: Headers, p: Payload, caller: CallerRequest): (r: Result<(Headers, Payload), Cause>)
    ensures r.Err? ==> r.error.TypeError? && Lookup(h, "Content-Type") == Some("multipart/form-data")
    ensures r.Ok? && TextOverride(caller.originalHeaders).Some? ==>
      r.value.1 == CallerBody(caller.body) &&
      Lookup(r.value.0, "Content-Type") == TextOverride(caller.originalHeaders)
    ensures r.Ok? && TextOverride(caller.originalHeaders).None? ==> r.value.1 == p
    ensures r.Ok? ==> forall k :: k != "Content-Type" ==> Lookup(r.value.0, k) == Lookup(h, k)
  {
    match WithBoundary(h, p)
    case Err(e) => Err(e)
    case Ok(withBoundary) =>
      match TextOverride(caller.originalHeaders)
      case Some(ct) => Ok((Put(withBoundary, "Content-Type", ct), CallerBody(caller.body)))
      case None => Ok((withBoundary, p))
  }

  /**
    What a REST resolver does before the fetch. `join` is the platform's path join of the
    base URL and the directive path; `boundary` is the one a new multipart form draws.
   */
  function BuildRequest(
    d: Directive, opts: Options, join: (string, string) -> string, template: Template,
    boundary: string, source: Value, args: Entries<Value>, caller: CallerRequest): (r: Result<Prepared, Cause>)
    ensures r.Ok? ==> r.value.request.httpMethod == MethodOf(d) && r.value.args == EffectiveArgs(source, args)
    ensures r.Err? ==> r.error.TemplateFailed? || r.error.TypeError?
    ensures r.Ok? ==> forall k :: k != "Content-Type" ==>
      Lookup(r.value.request.headers, k) == Lookup(ReqHeaders(d, opts, caller.headers), k)
    ensures r.Ok? ==> r.value.request.url == SubstituteUrl(join(opts.baseURL, d.path), r.value.args)
    ensures r.Ok? ==>
      var encoded := EncodedBody(d, opts, template, boundary, r.value.args);
      encoded.Ok? &&
      Finish(ReqHeaders(d, opts, caller.headers), encoded.value, caller) == Ok((r.value.request.headers, r.value.request.body))
  {
    var headers := ReqHeaders(d, opts, caller.headers);
    var allArgs := EffectiveArgs(source, args);
    var url := SubstituteUrl(join(opts.baseURL, d.path), allArgs);
    match EncodedBody(d, opts, template, boundary, allArgs)
    case Err(e) => Err(e)
    case Ok(payload) =>
      match Finish(headers, payload, caller)
      case Err(e) => Err(e)
      case Ok(sent) => Ok(Prepared(Request(url, MethodOf(d), sent.0, sent.1), allArgs))
  }

  /** A path without placeholders is fetched as joined, whatever the arguments. */
  lemma StaticPathFetchedAsJoined(
    d: Directive, opts: Options, join: (string, string) -> string, template: Template,
    boundary: string, source: Value, args: Entries<Value>, caller: CallerRequest)
    requires '$' !in join(opts.baseURL, d.path)
    ensures var r := BuildRequest(d, opts, join, template, boundary, source, args, caller);
      r.Ok? ==> r.value.request.url == join(opts.baseURL, d.path)
  {
    DollarFreeUrl(join(opts.baseURL, d.path), EffectiveArgs(source, args));
  }

  /**
    The request goes to the joined path with the placeholder filled in: when the only
    argument whose placeholder occurs is the last one, and its text has no replacement
    pattern, that text stands where its first `$name` stood.
   */
  lemma PlaceholderFilledInRequest(
    d: Directive, opts: Options, join: (string, string) -> string, template: Template,
    boundary: string, source: Value, args: Entries<Value>, caller: CallerRequest,
    pre: string, k: string, post: string, v: Value, others: Entries<Value>)
    requires join(opts.baseURL, d.path) == pre + "$" + k + post
    requires EffectiveArgs(source, args) == others + [(k, v)]
    requires forall i :: 0 <= i < |others| ==> !Includes(pre + "$" + k + post, "$" + others[i].0)
    requires FirstAt(pre + "$" + k + post, "$" + k, |pre|) && Plain(UrlText(v))
    ensures var r := BuildRequest(d, opts, join, template, boundary, source, args, caller);
      r.Ok? ==> r.value.request.url == pre + UrlText(v) + post
  {
    var url := pre + "$" + k + post;
    SubstituteInOrder(url, others, [(k, v)]);
    UnmatchedArgumentsIgnored(url, others);
    PlainArgumentVerbatim(pre, k, post, v);
  }

  /**
    A caller whose original `Content-Type` mentions `text/` has its own body forwarded
    under that content type, whatever the directive would have sent.
   */
  lemma TextBodyForwarded(
    d: Directive, opts: Options, join: (string, string) -> string, template: Template,
    boundary: string, source: Value, args: Entries<Value>, caller: CallerRequest)
    requires TextOverride(caller.originalHeaders).Some?
    ensures var r := BuildRequest(d, opts, join, template, boundary, source, args, caller);
      r.Ok? ==>
        r.value.request.body == CallerBody(caller.body) &&
        Lookup(r.value.request.headers, "Content-Type") == TextOverride(caller.originalHeaders)
  {
    var r := BuildRequest(d, opts, join, template, boundary, source, args, caller);
    if r.Ok? {
      var payload := EncodedBody(d, opts, template, boundary, EffectiveArgs(source, args)).value;
      var sent := Finish(ReqHeaders(d, opts, caller.headers), payload, caller).value;
      assert r.value.request.body == sent.1 && r.value.request.headers == sent.0;
    }
  }

  /** Without the text override, `GET` and `HEAD` send no body. */
  lemma BodilessMethods(
    d: Directive, opts: Options, join: (string, string) -> string, template: Template,
    boundary: string, source: Value, args: Entries<Value>, caller: CallerRequest)
    requires !SendsBody(d) && TextOverride(caller.originalHeaders).None?
    ensures var r := BuildRequest(d, opts, join, template, boundary, source, args, caller);
      r.Ok? ==> r.value.request.body == NoBody
  {
  }

  /**
    A `GET` or `HEAD` whose outbound `Content-Type` is exactly `multipart/form-data`
    fails with a TypeError before any request is made: the boundary is read from a body
    that does not exist.
   */
  lemma BodilessMultipartFails(
    d: Directive, opts: Options, join: (string, string) -> string, template: Template,
    boundary: string, source: Value, args: Entries<Value>, caller: CallerRequest)
    requires !SendsBody(d)
    requires Lookup(ReqHeaders(d, opts, caller.headers), "Content-Type") == Some("multipart/form-data")
    ensures var r := BuildRequest(d, opts, join, template, boundary, source, args, caller);
      r.Err? && r.error.TypeError?
  {
  }

  /**
    Without a `postbody`, a JSON request sends the picked arguments, and the headers of
    `getReqHeaders` unchanged, unless the caller's body is forwarded.
   */
  lemma JsonBodyIsArguments(
    d: Directive, opts: Options, join: (string, string) -> string, template: Template,
    boundary: string, source: Value, args: Entries<Value>, caller: CallerRequest)
    requires SendsBody(d) && (d.postBody.None? || d.postBody.value == "")
    requires EffectiveContentType(d, opts) == "application/json"
    requires TextOverride(caller.originalHeaders).None?
    ensures var r := BuildRequest(d, opts, join, template, boundary, source, args, caller);
      r.Ok? && r.value.request.body == JsonText(Obj(AutoBody(EffectiveArgs(source, args)))) &&
      r.value.request.headers == ReqHeaders(d, opts, caller.headers)
  {
    var allArgs, h := EffectiveArgs(source, args), ReqHeaders(d, opts, caller.headers);
    var p := JsonText(Obj(AutoBody(allArgs)));
    assert EncodedBody(d, opts, template, boundary, allArgs) == Ok(p);
    FinishJson(h, p, caller);
  }

  /** Encoding non-empty arguments as multipart draws the boundary. */
  lemma MultipartOfArguments(args: Entries<Value>, boundary: string)
    requires |args| > 0
    ensures var e := Encode(Obj(args), "multipart/form-data", boundary);
      e.Ok? && e.value.MultipartForm? && e.value.boundary == Some(boundary) && Keys(e.value.parts) == Keys(args)
  {
    assert |Keys(args)| == |args|;
  }

  /**
    A multipart request with at least one argument whose name `_.pick` keeps announces
    its boundary: the `Content-Type` becomes `multipart/form-data; boundary=<boundary>`
    and each picked argument is one part.
   */
  lemma MultipartAnnouncesBoundary(
    d: Directive, opts: Options, join: (string, string) -> string, template: Template,
    boundary: string, source: Value, args: Entries<Value>, caller: CallerRequest)
    requires SendsBody(d) && (d.postBody.None? || d.postBody.value == "")
    requires EffectiveContentType(d, opts) == "multipart/form-data"
    requires Lookup(ReqHeaders(d, opts, caller.headers), "Content-Type") == Some("multipart/form-data")
    requires TextOverride(caller.originalHeaders).None?
    requires exists i :: 0 <= i < |EffectiveArgs(source, args)| && !Guarded(EffectiveArgs(source, args)[i].0)
    requires boundary != ""
    ensures var r := BuildRequest(d, opts, join, template, boundary, source, args, caller);
      r.Ok? && r.value.request.body.MultipartForm? &&
      Keys(r.value.request.body.parts) == Keys(AutoBody(EffectiveArgs(source, args))) &&
      Lookup(r.value.request.headers, "Content-Type") == Some("multipart/form-data; boundary=" + boundary)
  {
    var allArgs, h := EffectiveArgs(source, args), ReqHeaders(d, opts, caller.headers);
    var picked := AutoBody(allArgs);
    PickedNonEmpty(allArgs);
    var e := Encode(Obj(picked), "multipart/form-data", boundary);
    MultipartOfArguments(picked, boundary);
    assert EncodedBody(d, opts, template, boundary, allArgs) == e;
    var ct := "multipart/form-data; boundary=" + boundary;
    FinishMultipart(h, e.value, caller, boundary);
    var url := SubstituteUrl(join(opts.baseURL, d.path), allArgs);
    assert BuildRequest(d, opts, join, template, boundary, source, args, caller)
      == Ok(Prepared(Request(url, MethodOf(d), Put(h, "Content-Type", ct), e.value), allArgs));
  }

  /** An argument whose name is not guarded survives `_.pick`. */
  lemma PickedNonEmpty(args: Entries<Value>)
    requires exists i :: 0 <= i < |args| && !Guarded(args[i].0)
    ensures |AutoBody(args)| > 0
  {
    var i :| 0 <= i < |args| && !Guarded(args[i].0);
    assert Keys(args)[i] == args[i].0;
    assert Lookup(AutoBody(args), args[i].0).Some?;
  }

  lemma FinishMultipart(h: Headers, p: Payload, caller: CallerRequest, boundary: string)
    requires p.MultipartForm? && p.boundary == Some(boundary) && boundary != ""
    requires Lookup(h, "Content-Type") == Some("multipart/form-data")
    requires TextOverride(caller.originalHeaders).None?
    ensures Finish(h, p, caller) == Ok((Put(h, "Content-Type", "multipart/form-data; boundary=" + boundary), p))
  {
  }

  lemma FinishJson(h: Headers, p: Payload, caller: CallerRequest)
    requires p.JsonText?
    requires TextOverride(caller.originalHeaders).None?
    ensures Finish(h, p, caller) == Ok((h, p))
  {
    assert BoundaryProp(p) == Ok(Undefined);
  }

  /** A failing `postbody` template fails the call, unless the method sends no body. */
  lemma TemplateFailurePropagates(
    d: Directive, opts: Options, join: (string, string) -> string, template: Template,
    boundary: string, source: Value, args: Entries<Value>, caller: CallerRequest)
    requires SendsBody(d) && d.postBody.Some? && d.postBody.value != ""
    requires template(d.postBody.value, EffectiveArgs(source, args)).Err?
    ensures var r := BuildRequest(d, opts, join, template, boundary, source, args, caller);
      r == Err(TemplateFailed(template(d.postBody.value, EffectiveArgs(source, args)).error))
  {
  }
}

=== FILE: rest_resolver.dfy ===
/**
  One call of a REST-mode resolver (src/rest-resolver.ts:91-195): build the request,
  hand it to the transport, turn the response into the field's value. The transport is
  the parameter `fetch`; everything it does is outside the model.
 */
module RestResolver {
  import opened Wrappers
  import opened Records
  import opened Values
  import opened Common
  import opened RestRequest
  import opened RestResponse

  /** The environment a resolver call runs in: the pieces the model takes as inputs. */
  datatype Env = Env(
    join: (string, string) -> string,
    template: Template,
    boundary: string,
    isVoid: bool,
    fetch: Request -> Response)

  /** The resolver's outcome for one call. */
  function Resolve(d: Directive, opts: Options, env: Env, source: Value, args: Entries<Value>, caller: CallerRequest)
    : (o: Outcome)
    ensures o.result.Err? && o.result.error.Thrown? && o.result.error.cause.TemplateFailed? ==> o.propagated == []
  {
    match BuildRequest(d, opts, env.join, env.template, env.boundary, source, args, caller)
    case Err(cause) => Outcome(Err(Thrown(cause)), [])
    case Ok(prepared) => HandleResponse(d, opts, env.isVoid, env.fetch(prepared.request), prepared.args)
  }

  /** A non-2xx response never resolves: it raises the error class with the response's status. */
  lemma NonOkNeverResolves(d: Directive, opts: Options, env: Env, source: Value, args: Entries<Value>, caller: CallerRequest)
    requires BuildRequest(d, opts, env.join, env.template, env.boundary, source, args, caller).Ok?
    requires !IsOk(env.fetch(BuildRequest(d, opts, env.join, env.template, env.boundary, source, args, caller).value.request))
    ensures var o := Resolve(d, opts, env, source, args, caller);
      var resp := env.fetch(BuildRequest(d, opts, env.join, env.template, env.boundary, source, args, caller).value.request);
      o.result.Err? && o.result.error.Upstream? && o.result.error.status == Num(resp.status) && o.propagated == []
  {
  }

  /** Every object the resolver returns carries the arguments of the call under `__args`. */
  lemma ObjectResultsCarryArgs(d: Directive, opts: Options, env: Env, source: Value, args: Entries<Value>, caller: CallerRequest)
    requires Resolve(d, opts, env, source, args, caller).result.Ok?
    requires Resolve(d, opts, env, source, args, caller).result.value.Obj?
    ensures Lookup(Resolve(d, opts, env, source, args, caller).result.value.fields, "__args") ==
      Some(Obj(EffectiveArgs(source, args)))
  {
    var prepared := BuildRequest(d, opts, env.join, env.template, env.boundary, source, args, caller).value;
    var resp := env.fetch(prepared.request);
    var data := ReadBody(resp, env.isVoid).value;
    var setters := d.setters.GetOr([]);
    var rooted := ApplyRoot(data, ResultRootFor(d, opts));
    var result := if |setters| > 0 then TransformWithSetters(rooted, setters) else rooted;
    assert Resolve(d, opts, env, source, args, caller).result.value == Tag(result, prepared.args);
  }

  /**
    A nested field resolved on an object this resolver returned sees the parent's
    arguments, which win over its own arguments of the same name.
   */
  lemma NestedCallSeesParentArgs(
    d: Directive, opts: Options, env: Env, source: Value, args: Entries<Value>, caller: CallerRequest,
    childArgs: Entries<Value>, k: string)
    requires Resolve(d, opts, env, source, args, caller).result.Ok?
    requires Resolve(d, opts, env, source, args, caller).result.value.Obj?
    ensures var parent := Resolve(d, opts, env, source, args, caller).result.value;
      var inherited := EffectiveArgs(source, args);
      Lookup(EffectiveArgs(parent, childArgs), k) ==
        if Lookup(inherited, k).Some? then Lookup(inherited, k) else Lookup(childArgs, k)
  {
    ObjectResultsCarryArgs(d, opts, env, source, args, caller);
    TaggedParentArgs(Resolve(d, opts, env, source, args, caller).result.value, EffectiveArgs(source, args), childArgs, k);
  }

  /** The argument inheritance seen from an object tagged with `inherited`. */
  lemma TaggedParentArgs(parent: Value, inherited: Entries<Value>, childArgs: Entries<Value>, k: string)
    requires parent.Obj? && Lookup(parent.fields, "__args") == Some(Obj(inherited))
    ensures Lookup(EffectiveArgs(parent, childArgs), k) ==
      if Lookup(inherited, k).Some? then Lookup(inherited, k) else Lookup(childArgs, k)
  {
    InheritedArgsWin(parent, childArgs, k);
  }
}

=== FILE: rest_response.dfy ===
/**
  The response half of a REST-mode resolver (src/rest-resolver.ts): a failed response
  becomes an error carrying the payload under `errorroot`; a successful one is read as
  text or JSON, narrowed to its `resultroot` (or several roots merged), reshaped by the
  setters and tagged with the arguments for nested resolvers.
 */
module RestResponse {
  import opened Wrappers
  import opened Records
  import opened Text
  import opened Values
  import opened Paths
  import opened Common

  /** The `errorroot` in effect: the directive's if given, else the global one. */
  function ErrorRootFor(d: Directive, opts: Options): Option<string> {
    if d.errorRoot.Some? then d.errorRoot else opts.errorRoot
  }

  /** The `resultroot` in effect: the directive's if given, else the global one. */
  function ResultRootFor(d: Directive, opts: Options): Option<RootSpec> {
    if d.resultRoot.Some? then d.resultRoot else opts.resultRoot
  }

  /** The computed key `[errorroot]`: a missing root becomes the key `undefined`. */
  function RootKey(errorRoot: Option<string>): string {
    match errorRoot
    case None => "undefined"
    case Some(r) => r
  }

  /** A response `Content-Type` that mentions `text` anywhere. */
  predicate IsTextContent(ct: Option<string>) {
    ct.Some? && Includes(ct.value, "text")
  }

  /** The error body of a failed response: text wrapped as a message, else parsed JSON. */
  function ErrorBody(resp: Response, errorRoot: Option<string>): Result<Value, Value> {
    if IsTextContent(ContentTypeOf(resp)) then
      match resp.text
      case Ok(t) => Ok(Obj([(RootKey(errorRoot), Obj([("message", Str(t))]))]))
      case Err(e) => Err(e)
    else resp.json
  }

  /**
    The error a non-2xx response raises: the configured error class built from the status
    text, the status and the payload under `errorroot` (an empty object when that is
    falsy), or the exception of a body that could not be read.
   */
  function ErrorFor(resp: Response, errorRoot: Option<string>): (f: Failure)
    ensures f.Upstream? && f.statusText == Str(resp.statusText) && f.status == Num(resp.status)
    ensures ErrorBody(resp, errorRoot).Err? ==> f.payload == ErrorBody(resp, errorRoot).error
    ensures ErrorBody(resp, errorRoot).Ok? ==> Truthy(f.payload)
  {
    match ErrorBody(resp, errorRoot)
    case Err(e) => Upstream(Str(resp.statusText), Num(resp.status), e)
    case Ok(p) =>
      var narrowed := if errorRoot.Some? && errorRoot.value != "" then Get(p, errorRoot.value) else p;
      Upstream(Str(resp.statusText), Num(resp.status), if Truthy(narrowed) then narrowed else Obj([]))
  }

  /**
    A text error body under an `errorroot` comes back as `{message: <text>}`, whatever
    the root's name, dots included.
   */
  lemma TextErrorMessage(resp: Response, root: string, t: string)
    requires IsTextContent(ContentTypeOf(resp)) && resp.text == Ok(t) && root != ""
    ensures ErrorFor(resp, Some(root)).payload == Obj([("message", Str(t))])
  {
    assert Get(Obj([(root, Obj([("message", Str(t))]))]), root) == Obj([("message", Str(t))]);
  }

  /** Without an `errorroot` a text error body stays wrapped under the key `undefined`. */
  lemma TextErrorWithoutRoot(resp: Response, t: string)
    requires IsTextContent(ContentTypeOf(resp)) && resp.text == Ok(t)
    ensures ErrorFor(resp, None).payload == Obj([("undefined", Obj([("message", Str(t))]))])
  {
  }

  /** A JSON error body is narrowed to its `errorroot`, and a missing subtree gives `{}`. */
  lemma JsonErrorNarrowed(resp: Response, root: string)
    requires !IsTextContent(ContentTypeOf(resp)) && resp.json.Ok? && root != ""
    ensures ErrorFor(resp, Some(root)).payload ==
      if Truthy(Get(resp.json.value, root)) then Get(resp.json.value, root) else Obj([])
  {
  }

  /** The value `_.get(data, root)` contributes to a merge of roots under key `k`. */
  function Provided(data: Value, root: string, k: string): Option<Value> {
    Lookup(OwnEntries(Get(data, root)), k)
  }

  /** `roots.reduce((res, root) => Object.assign(res, _.get(data, root)), {})`. */
  function MergeRoots(data: Value, roots: seq<string>): Entries<Value>
    decreases |roots|
  {
    if |roots| == 0 then []
    else Assign(MergeRoots(data, roots[..|roots| - 1]), OwnEntries(Get(data, roots[|roots| - 1])))
  }

  /** One more root: its properties win over what the earlier roots merged. */
  lemma MergeRootsSnoc(data: Value, roots: seq<string>, k: string)
    requires |roots| > 0
    ensures Lookup(MergeRoots(data, roots), k) ==
      if Provided(data, roots[|roots| - 1], k).Some? then Provided(data, roots[|roots| - 1], k)
      else Lookup(MergeRoots(data, roots[..|roots| - 1]), k)
  {
  }

  /** `f` holds for every element of `xs` from index `lo` on, checked from the last element back. */
  predicate AllHoldFrom(f: string -> bool, xs: seq<string>, lo: nat)
    decreases |xs|
  {
    |xs| <= lo || (f(xs[|xs| - 1]) && AllHoldFrom(f, xs[..|xs| - 1], lo))
  }

  lemma {:induction false} AllHoldFromIff(f: string -> bool, xs: seq<string>, lo: nat)
    ensures AllHoldFrom(f, xs, lo) <==> forall j :: lo <= j < |xs| ==> f(xs[j])
    decreases |xs|
  {
    if |xs| > lo {
      var n := |xs| - 1;
      AllHoldFromIff(f, xs[..n], lo);
      assert forall j :: lo <= j < n ==> xs[..n][j] == xs[j];
    }
  }

  lemma {:induction false} MergedKeyAbsentRec(data: Value, roots: seq<string>, k: string)
    ensures Lookup(MergeRoots(data, roots), k).None? <==> AllHoldFrom(r => Provided(data, r, k).None?, roots, 0)
    decreases |roots|
  {
    if |roots| > 0 {
      MergedKeyAbsentRec(data, roots[..|roots| - 1], k);
      MergeRootsSnoc(data, roots, k);
    }
  }

  /** A key is absent from the merge exactly when no root provides it. */
  lemma MergedKeyAbsent(data: Value, roots: seq<string>, k: string)
    ensures Lookup(MergeRoots(data, roots), k).None? <==>
      forall i :: 0 <= i < |roots| ==> Provided(data, roots[i], k).None?
  {
    MergedKeyAbsentRec(data, roots, k);
    AllHoldFromIff(r => Provided(data, r, k).None?, roots, 0);
  }

  lemma {:induction false} LaterRootWinsRec(data: Value, roots: seq<string>, k: string, i: nat)
    requires i < |roots| && Provided(data, roots[i], k).Some?
    requires AllHoldFrom(r => Provided(data, r, k).None?, roots, i + 1)
    ensures Lookup(MergeRoots(data, roots), k) == Provided(data, roots[i], k)
    decreases |roots|
  {
    MergeRootsSnoc(data, roots, k);
    if i < |roots| - 1 {
      var init := roots[..|roots| - 1];
      assert init[i] == roots[i];
      LaterRootWinsRec(data, init, k, i);
    }
  }

  /** A merged key holds the value of the last root that provides it. */
  lemma LaterRootWins(data: Value, roots: seq<string>, k: string, i: nat)
    requires i < |roots| && Provided(data, roots[i], k).Some?
    requires forall j :: i < j < |roots| ==> Provided(data, roots[j], k).None?
    ensures Lookup(MergeRoots(data, roots), k) == Provided(data, roots[i], k)
  {
    AllHoldFromIff(r => Provided(data, r, k).None?, roots, i + 1);
    LaterRootWinsRec(data, roots, k, i);
  }

  /**
    `data` narrowed to the result root: one path is read with `_.get`, a list of paths
    is merged into a fresh object; no root or an empty path leaves `data` as it is.
   */
  function ApplyRoot(data: Value, root: Option<RootSpec>): Value {
    match root
    case None => data
    case Some(RootPath(p)) => if p == "" then data else Get(data, p)
    case Some(RootPaths(ps)) => Obj(MergeRoots(data, ps))
  }

  /** `setOrAssign`: write the source value at `field`, or merge it in when there is no field. */
  function SetOrAssign(target: Entries<Value>, s: Setter, data: Value): Entries<Value> {
    if s.field != "" then SetPath(target, s.field, Get(data, s.path))
    else Assign(target, OwnEntries(Get(data, s.path)))
  }

  /** Every setter in order, each reading from the same `data`. */
  function ApplySetters(target: Entries<Value>, setters: seq<Setter>, data: Value): Entries<Value>
    decreases |setters|
  {
    if |setters| == 0 then target
    else SetOrAssign(ApplySetters(target, setters[..|setters| - 1], data), setters[|setters| - 1], data)
  }

  /** Whether a setter may write the top-level key `k`. */
  predicate MayWrite(s: Setter, k: string) {
    s.field == "" || k == s.field || k == Split(s.field)[0]
  }

  /** A key that no setter may write keeps its value. */
  lemma {:induction false} SettersFrame(target: Entries<Value>, setters: seq<Setter>, data: Value, k: string)
    requires forall i :: 0 <= i < |setters| ==> !MayWrite(setters[i], k)
    ensures Lookup(ApplySetters(target, setters, data), k) == Lookup(target, k)
    decreases |setters|
  {
    if |setters| > 0 {
      var init := setters[..|setters| - 1];
      var s := setters[|setters| - 1];
      assert !MayWrite(s, k);
      SettersFrame(target, init, data, k);
      SetPathFrame(ApplySetters(target, init, data), s.field, Get(data, s.path), k);
    }
  }

  /**
    The last setter with a field decides what that field reads, when `_.set` can write
    every step of that field's path.
   */
  lemma LastSetterReadsBack(target: Entries<Value>, setters: seq<Setter>, data: Value)
    requires |setters| > 0 && setters[|setters| - 1].field != ""
    requires CanSet(ApplySetters(target, setters[..|setters| - 1], data), setters[|setters| - 1].field)
    ensures var s := setters[|setters| - 1];
      Get(Obj(ApplySetters(target, setters, data)), s.field) == Get(data, s.path)
  {
    var s := setters[|setters| - 1];
    GetAfterSet(ApplySetters(target, setters[..|setters| - 1], data), s.field, Get(data, s.path));
  }

  /**
    A setter without a field copies every own property of its source over the target,
    and every key its source lacks keeps the target's value.
   */
  lemma AssignSetterCopies(target: Entries<Value>, path: string, data: Value, k: string)
    ensures var src := OwnEntries(Get(data, path));
      Lookup(SetOrAssign(target, Setter("", path), data), k) ==
        if Lookup(src, k).Some? then Lookup(src, k) else Lookup(target, k)
  {
  }

  /**
    `transformWithSetters`: a copy of the data with the setters applied; for an array,
    a copy of every element, each with the setters applied reading from the whole array.
   */
  function TransformWithSetters(data: Value, setters: seq<Setter>): (r: Value)
    ensures data.Arr? <==> r.Arr?
    ensures r.Arr? ==> |r.items| == |data.items| && forall i :: 0 <= i < |r.items| ==> r.items[i].Obj?
    ensures !data.Arr? ==> r.Obj?
  {
    match data
    case Arr(items) =>
      Arr(seq(|items|, i requires 0 <= i < |items| => Obj(ApplySetters(OwnEntries(items[i]), setters, data))))
    case _ => Obj(ApplySetters(OwnEntries(data), setters, data))
  }

  /**
    For an array, a setter's source path is read from the array itself, so every element
    receives the same value.
   */
  lemma ArrayElementsShareSetterValue(items: seq<Value>, f: string, p: string, i: nat)
    requires f != "" && i < |items| && CanSet(OwnEntries(items[i]), f)
    ensures var r := TransformWithSetters(Arr(items), [Setter(f, p)]);
      Get(r.items[i], f) == Get(Arr(items), p)
  {
    var setters := [Setter(f, p)];
    assert setters[..0] == [];
    LastSetterReadsBack(OwnEntries(items[i]), setters, Arr(items));
  }

  /** `result.__args = args` on a truthy object result; other results are returned as they are. */
  function Tag(result: Value, args: Entries<Value>): (r: Value)
    ensures result.Obj? ==> r.Obj? && Lookup(r.fields, "__args") == Some(Obj(args))
    ensures result.Obj? ==> forall k :: k != "__args" ==> Lookup(r.fields, k) == Lookup(result.fields, k)
    ensures !result.Obj? ==> r == result
  {
    if Truthy(result) && result.Obj? then Obj(Put(result.fields, "__args", Obj(args))) else result
  }

  /** The second stage of the pipeline: root, setters, tag. */
  function Reshape(data: Value, root: Option<RootSpec>, setters: seq<Setter>, args: Entries<Value>): Value {
    var rooted := ApplyRoot(data, root);
    var result := if |setters| > 0 then TransformWithSetters(rooted, setters) else rooted;
    Tag(result, args)
  }

  /**
    An empty body read as text under the root `data` resolves to `undefined`: the root
    is applied to strings too.
   */
  lemma EmptyTextUnderDataRoot(args: Entries<Value>)
    ensures Reshape(Str(""), Some(RootPath("data")), [], args) == Undefined
  {
    assert Split("data") == ["data"];
  }

  /** Without root and setters, an object result is the body plus the `__args` tag. */
  lemma PlainObjectTagged(m: Entries<Value>, args: Entries<Value>, k: string)
    ensures var r := Reshape(Obj(m), None, [], args);
      r.Obj? && Lookup(r.fields, "__args") == Some(Obj(args)) &&
      (k != "__args" ==> Lookup(r.fields, k) == Lookup(m, k))
  {
  }

  /**
    Setters read from the rooted data, not from the raw body: a single setter's field
    holds the value its path names below the root.
   */
  lemma SettersReadRootedData(data: Value, root: string, f: string, p: string, args: Entries<Value>)
    requires root != "" && !Get(data, root).Arr?
    requires f != "" && '.' !in f && f != "__args" && !Guarded(f)
    ensures Get(Reshape(data, Some(RootPath(root)), [Setter(f, p)], args), f) == Get(Get(data, root), p)
  {
    var rooted := Get(data, root);
    var t := TransformWithSetters(rooted, [Setter(f, p)]);
    SingleSetterReadsBack(rooted, f, p);
    var r := Tag(t, args);
    assert ApplyRoot(data, Some(RootPath(root))) == rooted;
    assert Reshape(data, Some(RootPath(root)), [Setter(f, p)], args) == r;
    assert Lookup(r.fields, f) == Lookup(t.fields, f);
    TopLevelGet(r.fields, f);
  }

  /** A dot-free key is read as a plain property. */
  lemma TopLevelGet(m: Entries<Value>, f: string)
    requires f != "" && '.' !in f
    ensures Get(Obj(m), f) == Lookup(m, f).GetOr(Undefined)
  {
    assert Split(f) == [f] && [f][1..] == [];
    assert Walk(Obj(m), [f]) == Walk(Prop(Obj(m), f), []);
  }

  /** One setter on a non-array writes its own top-level key from the data's path. */
  lemma SingleSetterReadsBack(v: Value, f: string, p: string)
    requires !v.Arr? && f != "" && '.' !in f && !Guarded(f)
    ensures var t := TransformWithSetters(v, [Setter(f, p)]);
      t.Obj? && Lookup(t.fields, f).GetOr(Undefined) == Get(v, p)
  {
    var setters := [Setter(f, p)];
    var t := TransformWithSetters(v, setters);
    assert Split(f) == [f];
    assert PathSegs(OwnEntries(v), f) == [f];
    assert setters[..0] == [];
    LastSetterReadsBack(OwnEntries(v), setters, v);
    TopLevelGet(t.fields, f);
  }

  /** The body read for a successful response: text for `Void` fields, JSON otherwise. */
  function ReadBody(resp: Response, isVoid: bool): (r: Result<Value, Failure>)
    ensures r.Err? ==> r.error.Thrown? && r.error.cause.BodyReadFailed?
    ensures r.Ok? && isVoid ==> r.value.Str?
  {
    if isVoid then
      match resp.text
      case Ok(t) => Ok(Str(t))
      case Err(e) => Err(Thrown(BodyReadFailed(e)))
    else
      match resp.json
      case Ok(v) => Ok(v)
      case Err(e) => Err(Thrown(BodyReadFailed(e)))
  }

  /** Both stages of the pipeline for one downstream response. */
  function HandleResponse(d: Directive, opts: Options, isVoid: bool, resp: Response, args: Entries<Value>): (o: Outcome)
    ensures !IsOk(resp) ==> o.result.Err? && o.result.error.Upstream? && o.propagated == []
    ensures IsOk(resp) ==> o.propagated == ResHeaders(resp.rawHeaders)
    ensures o.result.Err? && o.result.error.Upstream? ==> !IsOk(resp)
  {
    if !IsOk(resp) then Outcome(Err(ErrorFor(resp, ErrorRootFor(d, opts))), [])
    else
      var propagated := ResHeaders(resp.rawHeaders);
      match ReadBody(resp, isVoid)
      case Err(f) => Outcome(Err(f), propagated)
      case Ok(data) => Outcome(Ok(Reshape(data, ResultRootFor(d, opts), d.setters.GetOr([]), args)), propagated)
  }

  /** A failed response raises the error class with its own status, whatever its body. */
  lemma NonOkRaisesStatus(d: Directive, opts: Options, isVoid: bool, resp: Response, args: Entries<Value>)
    requires !IsOk(resp)
    ensures var o := HandleResponse(d, opts, isVoid, resp, args);
      o.result == Err(ErrorFor(resp, ErrorRootFor(d, opts))) && o.result.error.status == Num(resp.status)
  {
  }

  /**
    A 204 reply with an empty body on a `Void` field under the root `data` resolves to
    `undefined`, and no error is raised.
   */
  lemma NoContentVoidResolvesUndefined(d: Directive, opts: Options, resp: Response, args: Entries<Value>)
    requires resp.status == 204 && resp.text == Ok("")
    requires ResultRootFor(d, opts) == Some(RootPath("data")) && d.setters.GetOr([]) == []
    ensures HandleResponse(d, opts, true, resp, args).result == Ok(Undefined)
  {
    EmptyTextUnderDataRoot(args);
  }
}

=== FILE: text.dfy ===
/**
  String operations the resolvers rely on: substring search (`includes`, `indexOf`),
  `String.prototype.replace` with a string pattern and its replacement-pattern expansion
  (the GetSubstitution operation of the ECMAScript language specification), ASCII
  lower-casing, the character classes `\s` and `\w` of ECMAScript regular expressions, and
  the canonical decimal form of array indices.
 */
module Text {
  import opened Wrappers

  /** `p` occurs in `s` starting at index `i`. */
  predicate OccursAt(s: string, p: string, i: nat) {
    i + |p| <= |s| && s[i..i + |p|] == p
  }

  /** `i` is the first index at which `p` occurs in `s`. */
  ghost predicate FirstAt(s: string, p: string, i: nat) {
    OccursAt(s, p, i) && forall j: nat :: j < i ==> !OccursAt(s, p, j)
  }

  /** `s.indexOf(p, from)`: the first occurrence at or after `from`. */
  function FindFrom(s: string, p: string, from: nat): (r: Option<nat>)
    requires from <= |s|
    ensures r.Some? ==> from <= r.value && OccursAt(s, p, r.value)
    ensures forall j: nat :: from <= j && (r.None? || j < r.value) ==> !OccursAt(s, p, j)
    decreases |s| - from
  {
    if from + |p| > |s| then None
    else if s[from..from + |p|] == p then Some(from)
    else FindFrom(s, p, from + 1)
  }

  /** `s.indexOf(p)`. */
  function IndexOf(s: string, p: string): (r: Option<nat>)
    ensures r.Some? <==> exists i: nat :: OccursAt(s, p, i)
    ensures r.Some? ==> FirstAt(s, p, r.value)
  {
    FindFrom(s, p, 0)
  }

  /** `s.includes(p)`. */
  predicate Includes(s: string, p: string) {
    IndexOf(s, p).Some?
  }

  /**
    Expansion of a replacement string: `$$` gives `$`, `$&` the matched text, `` $` `` the
    text before the match and `$'` the text after it; any other `$` stays literal (the
    patterns are used without capture groups, so `$1` and `$<` are literal too).
   */
  function Substitute(template: string, matched: string, before: string, after: string): string
    decreases |template|
  {
    if |template| == 0 then ""
    else if template[0] == '$' && |template| >= 2 && template[1] in "$&`'" then
      (match template[1]
       case '$' => "$"
       case '&' => matched
       case '`' => before
       case _ => after)
      + Substitute(template[2..], matched, before, after)
    else [template[0]] + Substitute(template[1..], matched, before, after)
  }

  /** No `$` in `t` starts a replacement pattern. */
  predicate Plain(t: string) {
    forall i :: 0 <= i < |t| - 1 && t[i] == '$' ==> t[i + 1] !in "$&`'"
  }

  /** A replacement string without patterns is inserted verbatim, whatever was matched. */
  lemma {:induction false} SubstitutePlain(t: string, matched: string, before: string, after: string)
    requires Plain(t)
    ensures Substitute(t, matched, before, after) == t
    decreases |t|
  {
    if |t| > 0 {
      assert Plain(t[1..]) by {
        forall i | 0 <= i < |t[1..]| - 1 && t[1..][i] == '$'
          ensures t[1..][i + 1] !in "$&`'"
        {
          assert t[i + 1] == '$';
        }
      }
      SubstitutePlain(t[1..], matched, before, after);
    }
  }

  /** Text without `$` at the front of a replacement is copied as it is. */
  lemma {:induction false} SubstituteLiteralPrefix(a: string, t: string, matched: string, before: string, after: string)
    requires '$' !in a
    ensures Substitute(a + t, matched, before, after) == a + Substitute(t, matched, before, after)
    decreases |a|
  {
    if |a| > 0 {
      var rest := Substitute(t, matched, before, after);
      assert (a + t)[0] == a[0] != '$';
      assert (a + t)[1..] == a[1..] + t;
      SubstituteLiteralPrefix(a[1..], t, matched, before, after);
      calc {
        Substitute(a + t, matched, before, after);
        [a[0]] + Substitute(a[1..] + t, matched, before, after);
        [a[0]] + (a[1..] + rest);
        { assert a == [a[0]] + a[1..]; }
        a + rest;
      }
    } else {
      assert a + t == t;
    }
  }

  /**
    `$$` in a replacement collapses to a single `$`, wherever it stands between text
    that is otherwise inserted literally: replacement strings are not verbatim.
   */
  lemma DoubleDollarCollapses(a: string, b: string, matched: string, before: string, after: string)
    requires '$' !in a && Plain(b)
    ensures Substitute(a + "$$" + b, matched, before, after) == a + "$" + b
  {
    assert a + "$$" + b == a + ("$$" + b);
    SubstituteLiteralPrefix(a, "$$" + b, matched, before, after);
    DoubleDollarHead(b, matched, before, after);
    assert a + ("$" + b) == a + "$" + b;
  }

  lemma DoubleDollarHead(b: string, matched: string, before: string, after: string)
    requires Plain(b)
    ensures Substitute("$$" + b, matched, before, after) == "$" + b
  {
    var t := "$$" + b;
    assert t[0] == '$' && t[1] == '$' && t[2..] == b;
    SubstitutePlain(b, matched, before, after);
  }

  /**
    `s.replace(p, replacement)` with a string pattern: only the first occurrence of `p`
    is replaced, and the replacement goes through `Substitute`.
   */
  function ReplaceFirst(s: string, p: string, replacement: string): (r: string)
    ensures (forall j: nat :: !OccursAt(s, p, j)) ==> r == s
    ensures forall i: nat :: FirstAt(s, p, i) ==>
      r == s[..i] + Substitute(replacement, p, s[..i], s[i + |p|..]) + s[i + |p|..]
  {
    match IndexOf(s, p)
    case None => s
    case Some(i) =>
      assert forall i': nat :: FirstAt(s, p, i') ==> i' == i;
      s[..i] + Substitute(replacement, p, s[..i], s[i + |p|..]) + s[i + |p|..]
  }

  /** An occurrence of `p` is the first one when the text before it lacks `p`'s first character. */
  lemma FirstOccurrenceAfter(pre: string, p: string, post: string)
    requires |p| > 0 && p[0] !in pre
    ensures FirstAt(pre + p + post, p, |pre|)
    ensures (pre + p + post)[..|pre|] == pre && (pre + p + post)[|pre| + |p|..] == post
  {
    var s := pre + p + post;
    assert s[|pre|..|pre| + |p|] == p;
    forall j: nat | j < |pre| ensures !OccursAt(s, p, j) {
      if j + |p| <= |s| {
        assert s[j..j + |p|][0] == s[j] == pre[j] != p[0];
      }
    }
    assert s[..|pre|] == pre;
    assert s[|pre| + |p|..] == post;
  }

  function LowerChar(c: char): char {
    if 'A' <= c <= 'Z' then (c as int + 32) as char else c
  }

  /** `toLowerCase()`, restricted to the ASCII letters. */
  function Lower(s: string): string {
    seq(|s|, i requires 0 <= i < |s| => LowerChar(s[i]))
  }

  /** The class `\s` of ECMAScript regular expressions (white space and line terminators). */
  predicate IsSpace(c: char) {
    var n := c as int;
    n == 0x09 || n == 0x0A || n == 0x0B || n == 0x0C || n == 0x0D || n == 0x20
    || n == 0xA0 || n == 0x1680 || (0x2000 <= n <= 0x200A) || n == 0x2028 || n == 0x2029
    || n == 0x202F || n == 0x205F || n == 0x3000 || n == 0xFEFF
  }

  /** The class `\w` of ECMAScript regular expressions. */
  predicate IsWordChar(c: char) {
    ('a' <= c <= 'z') || ('A' <= c <= 'Z') || ('0' <= c <= '9') || c == '_'
  }

  predicate IsDigit(c: char) {
    '0' as int <= c as int <= '9' as int
  }

  function DigitChar(d: nat): char
    requires d < 10
  {
    ('0' as int + d) as char
  }

  predicate AllDigits(s: string) {
    forall i :: 0 <= i < |s| ==> IsDigit(s[i])
  }

  /** The value of a string of decimal digits. */
  function DigitsValue(s: string): nat
    requires AllDigits(s)
    decreases |s|
  {
    if |s| == 0 then 0
    else
      assert IsDigit(s[|s| - 1]);
      DigitsValue(s[..|s| - 1]) * 10 + (s[|s| - 1] as int - '0' as int)
  }

  /** The canonical decimal form of a natural number (`String(n)`). */
  function NatToString(n: nat): string
    decreases n
  {
    (if n < 10 then "" else NatToString(n / 10)) + [DigitChar(n % 10)]
  }

  /** Whether `k` is the canonical form of an array index, and which one. */
  function ParseIndex(k: string): Option<nat> {
    if |k| > 0 && AllDigits(k) && (|k| == 1 || k[0] != '0')
    then Some(DigitsValue(k))
    else None
  }

  lemma {:induction false} NatToStringShape(n: nat)
    ensures |NatToString(n)| > 0
    ensures AllDigits(NatToString(n))
    ensures |NatToString(n)| == 1 || NatToString(n)[0] != '0'
    ensures DigitsValue(NatToString(n)) == n
    ensures n < 10 <==> |NatToString(n)| == 1
    decreases n
  {
    var s := NatToString(n);
    if n >= 10 {
      NatToStringShape(n / 10);
      var t := NatToString(n / 10);
      assert s == t + [DigitChar(n % 10)];
      assert s[..|s| - 1] == t;
      assert s[0] == t[0];
    }
  }

  /** Decimal printing and index parsing are inverse: every index has exactly one name. */
  lemma {:induction false} IndexRoundTrip(n: nat)
    ensures ParseIndex(NatToString(n)) == Some(n)
  {
    NatToStringShape(n);
  }

  lemma DivMod10(m: nat, d: nat)
    requires d < 10
    ensures (m * 10 + d) / 10 == m && (m * 10 + d) % 10 == d
  {
  }

  lemma DigitCharOf(c: char)
    requires IsDigit(c)
    ensures DigitChar(c as int - '0' as int) == c
  {
  }

  lemma DigitsValueSnoc(init: string, c: char)
    requires AllDigits(init)
    requires IsDigit(c)
    ensures AllDigits(init + [c])
    ensures DigitsValue(init + [c]) == DigitsValue(init) * 10 + (c as int - '0' as int)
  {
    assert (init + [c])[..|init|] == init;
  }

  /** Appending digit `d` to the name of a positive `m` names `m * 10 + d`. */
  lemma NatToStringSnoc(m: nat, d: nat)
    requires 0 < m && d < 10
    ensures NatToString(m * 10 + d) == NatToString(m) + [DigitChar(d)]
  {
    DivMod10(m, d);
  }

  lemma {:induction false} IndexNamesAreCanonical(k: string)
    requires ParseIndex(k).Some?
    ensures NatToString(ParseIndex(k).value) == k
  {
    CanonicalDigits(k);
  }

  lemma AllDigitsPrefix(k: string, n: nat)
    requires AllDigits(k) && n <= |k|
    ensures AllDigits(k[..n])
  {
  }

  /** A canonical name of a positive number, extended by one digit, names the extended number. */
  lemma CanonicalSnoc(init: string, m: nat, d: nat)
    requires 0 < |init| && init[0] != '0' && NatToString(m) == init && d < 10
    ensures NatToString(m * 10 + d) == init + [DigitChar(d)]
  {
    assert NatToString(0) == "0";
    assert m != 0;
    NatToStringSnoc(m, d);
  }

  lemma {:induction false} CanonicalDigits(k: string)
    requires |k| > 0 && AllDigits(k) && (|k| == 1 || k[0] != '0')
    ensures NatToString(DigitsValue(k)) == k
    decreases |k|
  {
    var init, c := k[..|k| - 1], k[|k| - 1];
    assert k == init + [c];
    assert IsDigit(c);
    var d: nat := c as int - '0' as int;
    DigitCharOf(c);
    AllDigitsPrefix(k, |k| - 1);
    DigitsValueSnoc(init, c);
    if |k| == 1 {
      assert init == [];
      assert NatToString(d) == [DigitChar(d)];
    } else {
      assert init[0] == k[0];
      CanonicalDigits(init);
      CanonicalSnoc(init, DigitsValue(init), d);
    }
  }
}

=== FILE: values.dfy ===
/**
  JavaScript values as the resolvers see them: arguments, parsed response bodies and the
  results handed back to the schema. Numbers are integers only. Objects are ordered
  entries (see `Records`), so key order survives spreading and `Object.assign`.
 */
module Values {
  import opened Wrappers
  import opened Records
  import opened Text

  datatype Value =
    | Undefined
    | Null
    | Bool(b: bool)
    | Num(n: int)
    | Str(s: string)
    | Arr(items: seq<Value>)
    | Obj(fields: Entries<Value>)

  /** JavaScript truthiness: `undefined`, `null`, `false`, `0` and `''` are falsy. */
  predicate Truthy(v: Value) {
    match v
    case Undefined => false
    case Null => false
    case Bool(b) => b
    case Num(n) => n != 0
    case Str(s) => |s| > 0
    case _ => true
  }

  /** `typeof v === 'object'`, which holds of `null` and of arrays too. */
  predicate IsObjectType(v: Value) {
    v.Null? || v.Arr? || v.Obj?
  }

  /** `v == null`: property access on such a value throws a TypeError. */
  predicate IsNullish(v: Value) {
    v.Undefined? || v.Null?
  }

  function IntToString(n: int): string {
    if n < 0 then "-" + NatToString(-n) else NatToString(n)
  }

  /** `String(v)`: arrays join their elements with commas, objects print as `[object Object]`. */
  function ToJsString(v: Value): string
    decreases v, 1
  {
    match v
    case Undefined => "undefined"
    case Null => "null"
    case Bool(b) => if b then "true" else "false"
    case Num(n) => IntToString(n)
    case Str(s) => s
    case Arr(items) => JoinItems(v, items)
    case Obj(_) => "[object Object]"
  }

  /** `items.join(',')`, where `null` and `undefined` elements print as the empty string. */
  function JoinItems(ghost parent: Value, items: seq<Value>): string
    requires parent.Arr? && items <= parent.items
    decreases parent, 0, |items|
  {
    if |items| == 0 then ""
    else
      var last := items[|items| - 1];
      var text := if IsNullish(last) then "" else ToJsString(last);
      if |items| == 1 then text else JoinItems(parent, items[..|items| - 1]) + "," + text
  }

  /** The own enumerable string-keyed properties of `v` (`Object.keys`, spread, `_.assign`). */
  function OwnEntries(v: Value): Entries<Value> {
    match v
    case Obj(f) => f
    case Arr(items) => seq(|items|, i requires 0 <= i < |items| => (NatToString(i), items[i]))
    case Str(s) => seq(|s|, i requires 0 <= i < |s| => (NatToString(i), Str([s[i]])))
    case _ => []
  }

  /** `k in Object(v)`, over own properties. */
  predicate HasProp(v: Value, k: string) {
    match v
    case Obj(f) => Lookup(f, k).Some?
    case Arr(items) => k == "length" || (ParseIndex(k).Some? && ParseIndex(k).value < |items|)
    case Str(s) => k == "length" || (ParseIndex(k).Some? && ParseIndex(k).value < |s|)
    case _ => false
  }

  /** `v[k]`, reading `undefined` for a missing property and through a nullish `v`. */
  function Prop(v: Value, k: string): Value {
    match v
    case Obj(f) => Lookup(f, k).GetOr(Undefined)
    case Arr(items) =>
      if k == "length" then Num(|items|)
      else if ParseIndex(k).Some? && ParseIndex(k).value < |items| then items[ParseIndex(k).value]
      else Undefined
    case Str(s) =>
      if k == "length" then Num(|s|)
      else if ParseIndex(k).Some? && ParseIndex(k).value < |s| then Str([s[ParseIndex(k).value]])
      else Undefined
    case _ => Undefined
  }

  /** Reading a key of an array's entries is the same as indexing the array. */
  lemma IndexedEntriesLookup<T>(xs: seq<T>, es: Entries<T>, k: string)
    requires |es| == |xs|
    requires forall i :: 0 <= i < |es| ==> es[i] == (NatToString(i), xs[i])
    ensures Lookup(es, k) ==
      if ParseIndex(k).Some? && ParseIndex(k).value < |xs| then Some(xs[ParseIndex(k).value]) else None
  {
    var r := Lookup(es, k);
    if r.Some? {
      var i :| 0 <= i < |es| && es[i] == (k, r.value);
      IndexRoundTrip(i);
      assert ParseIndex(k) == Some(i);
    } else if ParseIndex(k).Some? && ParseIndex(k).value < |xs| {
      var i := ParseIndex(k).value;
      IndexNamesAreCanonical(k);
      assert false;
    }
  }

  /**
    Spreading a value keeps every own property readable under the same key: apart from
    `length`, reading `k` from the spread copy gives what reading `k` from `v` gives.
   */
  lemma {:induction false} SpreadKeepsProperties(v: Value, k: string)
    requires k != "length"
    ensures Prop(Obj(OwnEntries(v)), k) == Prop(v, k)
    ensures HasProp(Obj(OwnEntries(v)), k) == HasProp(v, k)
  {
    match v
    case Arr(items) => IndexedEntriesLookup(items, OwnEntries(v), k);
    case Str(s) =>
      var chars := seq(|s|, i requires 0 <= i < |s| => Str([s[i]]));
      IndexedEntriesLookup(chars, OwnEntries(v), k);
    case _ =>
  }
}

=== FILE: wrappers.dfy ===
/** Option and Result, the failure-carrying datatypes used throughout the model. */
module Wrappers {

  datatype Option<+T> = None | Some(value: T) {

    /** The wrapped value, or `default` when there is none. */
    function GetOr(default: T): T {
      match this
      case Some(v) => v
      case None => default
    }
  }

  /** `Ok` carries a computed value, `Err` the reason the computation was abandoned. */
  datatype Result<+T, +E> = Ok(value: T) | Err(error: E)
}
